=== FILE: README.md ===
# AI Deadline backend — a Dafny model

This project models the core of the AI Deadline backend, a FastAPI service
that tracks projects and tasks. The service records AI risk forecasts for
tasks and receives callbacks from n8n automation workflows. The model covers:

- the authentication helpers: the e-mail pattern, the password checks and
  strength score, the registration-error list, the HTML-entity sanitiser,
  the pagination clamp, role checks, error formatting and token expiry
  (`AuthUtils.dfy`);
- the task endpoints: owner-or-admin authorisation, the filtered task list,
  task creation and deletion, and the progress state machine with its
  "task completed" notification (`TaskRouter.dfy`);
- the authentication service: the user table with its uniqueness
  invariant, registration, login and lookups (`AuthService.dfy`);
- the n8n callbacks: status derivation, the owner-e-mail lookups, and the
  records each handler appends (`Webhooks.dfy`);
- the admin endpoints: a user's detail page and its statistics, deleting a
  user together with everything they own, and the system statistics
  (`Admin.dfy`);
- the forecast listings: visibility, filters, newest-first order,
  pagination, and the latest forecast of each task (`Forecasts.dfy`).

The database is a set of Dafny sequences of records (`Models.dfy`). An
endpoint that only reads is a function over those sequences. An endpoint
that writes is a method of a class that holds the sequences it changes:
`TaskRouter.TaskBoard`, `AuthService.UserRegistry`,
`Webhooks.AutomationInbox` and `Admin.AdminStore`. Each class keeps an
invariant (`Valid`), such as unique ids or referential integrity, and every
method preserves it. An HTTP error is the `Err` case of `Common.Result`,
holding the status code and the exact `detail` text. The clock is an integer
parameter `now`. A bcrypt hash is the injective
`Models.HashPassword`; real bcrypt reads only the first 72 bytes of a
password, which the model does not capture. A decoded JWT is the optional `exp` claim
`AuthUtils.ExpClaim`.

## Model

| member | source | states |
|---|---|---|
| AuthUtils.FullMatchIsEmailShape | backend/app/utils/auth.py:221-222 | The e-mail pattern matches all of a string iff it has a non-empty local part free of whitespace and '@', one '@', and a whitespace- and '@'-free rest with a '.' that is neither its first nor its last character |
| AuthUtils.ValidateEmailMeaning | backend/app/utils/auth.py:221-222 | `validate_email` accepts exactly the e-mail shape, or the e-mail shape followed by a single final newline (Python's `$`) |
| AuthUtils.IndexOfChar | backend/app/utils/auth.py:221 | Finds the first occurrence of a character, or reports its absence; this is how the pattern's '@' and '.' are located |
| AuthUtils.ValidatePasswordStrength | backend/app/utils/auth.py:242-265 | `is_valid` iff no issues; an empty password gives exactly the one "empty" issue; at most five issues; the issues are those of the failed rules in their fixed order |
| AuthUtils.IssuesFor | backend/app/utils/auth.py:247-260 | The issue list has at most one entry per rule, is empty iff no rule is violated, and holds only rule messages |
| AuthUtils.IssuesForReports | backend/app/utils/auth.py:247-260 | A rule's message is reported iff the rule is among those checked and the password violates it |
| AuthUtils.PasswordIssueIffRuleFails | backend/app/utils/auth.py:247-265 | Each message appears iff its rule fails; no issue iff 6 <= length <= 100 and a lower-case letter, an upper-case letter and a digit are present |
| AuthUtils.RuleIssueDistinct | backend/app/utils/auth.py:247-260 | Different rules report different messages |
| AuthUtils.PasswordRulesUnfold | backend/app/utils/auth.py:247-260 | The issue list is the concatenation of the five rule checks in source order: length < 6, length > 100, lower case, upper case, digit |
| AuthUtils.CalculatePasswordStrength | backend/app/utils/auth.py:278-301 | The step-by-step score equals the specification `StrengthScore` (0 when empty; 10 per length tier; 15/15/15/20 per character class; capped at 100) and lies in 0..100 |
| AuthUtils.StrengthRange | backend/app/utils/auth.py:278-301 | The score is 0 iff the password is empty, is a multiple of 5, is at least 15 otherwise, and never exceeds 95, so the cap at 100 never applies |
| AuthUtils.StrengthGrowsWithAppend | backend/app/utils/auth.py:284-299 | Appending a character never lowers the score |
| AuthUtils.TokenExpirationTime | backend/app/utils/auth.py:338-344 | There is an expiry iff the token decodes and carries `exp`, and it is that claim |
| AuthUtils.TimeUntilExpiration | backend/app/utils/auth.py:375-379 | The time left exists iff the expiry does, and now plus the time left is the expiry |
| AuthUtils.IsTokenExpired | backend/app/utils/auth.py:357-362 | An undecodable token or one without `exp` is expired; otherwise expired iff now + 60 > exp, strictly; equivalently, no time left or less than 60 seconds left |
| AuthUtils.ExpiryIsPermanent | backend/app/utils/auth.py:357-362 | A token expired at some time is expired at every later time |
| AuthUtils.IsUserAdmin | backend/app/utils/auth.py:438 | A user is admin iff their role ranks at least as high as every role |
| AuthUtils.CheckUserPermission | backend/app/utils/auth.py:453-456 | An admin always passes; otherwise a user passes iff their role ranks at least as high as the required role |
| AuthUtils.FormatAuthError | backend/app/utils/auth.py:474-478 | The exception has the given status and detail, and carries `WWW-Authenticate: Bearer` iff the status is 401 |
| AuthUtils.CredentialsException | backend/app/utils/auth.py:488-492 | The standard 401 "Could not validate credentials" error, with the Bearer header |
| AuthUtils.ForbiddenException | backend/app/utils/auth.py:505-508 | A 403 error with the given detail and no header |
| AuthUtils.ValidateUserRegistrationData | backend/app/utils/auth.py:584-604 | The accumulated list equals `RegistrationErrors`: e-mail errors, then the password issues, then the full-name errors |
| AuthUtils.AppendFullNameErrors | backend/app/utils/auth.py:598-602 | The full-name block appends exactly `FullNameErrors` to what was accumulated: nothing for an absent or empty name, the too-short and too-long errors in that order |
| AuthUtils.EmptyEmailReportedOnlyAsEmpty | backend/app/utils/auth.py:587-590 | An empty e-mail is reported first and only as empty; a non-empty malformed e-mail is reported first and only as invalid |
| AuthUtils.EmailErrorsAreDistinct | backend/app/utils/auth.py:584-602 | No password or full-name message coincides with an e-mail message |
| AuthUtils.RegistrationValidIff | backend/app/utils/auth.py:584-604 | No error iff the e-mail is valid, the password passes every rule, and a given non-empty full name has 2..100 characters |
| AuthUtils.SpaceRunEnd | backend/app/utils/auth.py:622 | The scan from the left stops at the first non-whitespace character at or after the start, or at the end, and passes only whitespace |
| AuthUtils.SpaceRunStart | backend/app/utils/auth.py:622 | The scan from the right stops just after the last non-whitespace character above the lower bound, or at the bound, and passes only whitespace |
| AuthUtils.Strip | backend/app/utils/auth.py:622 | The result is the slice of the input between the leading and trailing whitespace, and neither begins nor ends with whitespace |
| AuthUtils.PrefixSlice | backend/app/utils/auth.py:622 | Python's `s[:n]`: a prefix of length min(n, len) for n >= 0 and len + n (at least 0) for negative n |
| AuthUtils.EncodeChainIsEscape | backend/app/utils/auth.py:625-630 | The five chained `replace` calls, with '&' first, equal the per-character entity encoding `Escape` |
| AuthUtils.UnescapeEscape | backend/app/utils/auth.py:625-630 | Decoding the five entities inverts the encoding: `Unescape(Escape(s)) == s` for every text |
| AuthUtils.EscapeLeavesNoBareAmpersand | backend/app/utils/auth.py:625-630 | Every '&' in the encoded text is the first character of one of the five entities; the encoding leaves no bare ampersand |
| AuthUtils.EscapeHasNoMarkup | backend/app/utils/auth.py:625-630 | The encoded text contains no raw '<', '>', '"' or "'" |
| AuthUtils.SanitizeUserInput | backend/app/utils/auth.py:618-632 | Empty input gives ""; otherwise the output is the encoding of the stripped, truncated text, decodes back to it, and has no raw markup characters |
| AuthUtils.PaginateQuery | backend/app/utils/auth.py:651-658 | Effective skip is max(skip, 0); effective limit is in 1..100, equal to an in-range limit, 10 below 1 and 100 above 100; the page is the slice that offset and limit select |
| Common.Page | backend/app/routers/tasks.py:116 | `offset(skip).limit(limit)`: min(limit, rows after skip) rows, each the row `skip` places further on |
| Common.Filter | backend/app/routers/admin.py:70 | The filter keeps only rows of the input that satisfy the predicate, keeps every such row, and keeps as many as `CountWhere` counts |
| Common.CountWhere | backend/app/routers/admin.py:78-80 | A count is at most the number of rows, and 0 iff no row qualifies |
| Common.FindFirst | backend/app/routers/tasks.py:171 | `.first()` finds the first qualifying row, or none iff no row qualifies |
| Common.FilterKeepsDistinct | backend/app/routers/forecasts.py:125-134 | Filtering rows that are pairwise distinct keeps them pairwise distinct |
| Common.FilterMember | backend/app/routers/admin.py:70 | A row the filter keeps is a row of the input that satisfies the predicate |
| Common.FilterAppend | backend/app/routers/admin.py:70 | Filtering keeps the input order: the filter of a concatenation is the concatenation of the filters |
| Common.FilterCounts | backend/app/routers/admin.py:70 | Filtering keeps multiplicity: a value the predicate accepts occurs as often as in the input, any other value not at all |
| Models.ParseStatus | backend/app/routers/tasks.py:94 | Parsing a status string succeeds exactly for the four status values, and inverts `StatusName` |
| Models.ParsePriority | backend/app/routers/tasks.py:104 | Parsing a priority succeeds exactly for the four priority values, and inverts `PriorityName` |
| Models.ParseRisk | backend/app/routers/webhooks.py:348 | Parsing a risk level succeeds exactly for the four levels, and inverts `RiskName` |
| Models.ParseAutomationStatus | backend/app/routers/webhooks.py:440 | Parsing an automation status succeeds exactly for the three values, and inverts `AutomationStatusName` |
| Models.UserById | backend/app/services/auth_service.py:155 | Finds a user with the id, or none iff no row has it |
| Models.UserByEmail | backend/app/services/auth_service.py:46-48 | Finds a user with the e-mail, or none iff no row has it |
| Models.ProjectById | backend/app/routers/tasks.py:180 | Finds a project with the id, or none iff no row has it |
| Models.TaskIndex | backend/app/routers/tasks.py:171 | Finds the index of a task with the id, or none iff no row has it |
| TaskRouter.Authorize | backend/app/routers/tasks.py:171-186 | 404 iff no task has the id, checked before the 403; on success the first task with the id, whose project the caller may access (an admin, or the owner of an existing project); an admin succeeds iff the task exists |
| TaskRouter.GetTask | backend/app/routers/tasks.py:171-211 | Returns a task with the requested id that the caller may access; 404 iff it is missing; otherwise the view-forbidden 403 |
| TaskRouter.GetTaskFindsTheRow | backend/app/routers/tasks.py:171-211 | With unique ids, a task is returned to a caller iff that caller may access its project |
| TaskRouter.ParseStatusFilter | backend/app/routers/tasks.py:92-100 | A non-empty status filter outside the four values is a 400 with the status message; an absent or empty one is no filter |
| TaskRouter.ParsePriorityFilter | backend/app/routers/tasks.py:102-110 | A non-empty priority filter outside the four values is a 400 with the priority message; an absent or empty one is no filter |
| TaskRouter.GetTasks | backend/app/routers/tasks.py:81-116 | The status filter is checked before the priority filter; the list succeeds iff both are valid; `total` is the number of tasks `TaskQuery` keeps and the page is the `skip`/`limit` cut of those tasks in table order; every row is in scope for the caller and matches every active filter |
| TaskRouter.ListedTasksAreViewable | backend/app/routers/tasks.py:81-116 | Every listed task is one `get_task` would return to the same caller |
| TaskRouter.AdminTotalCountsJoinedTasks | backend/app/routers/tasks.py:81-116 | For an admin with no filters, the list is every task whose project exists, and `total` counts them |
| TaskRouter.NextStatus | backend/app/routers/tasks.py:443-447 | Progress 100 gives DONE; progress > 0 moves TODO to IN_PROGRESS; every other status, including DONE below 100, is kept |
| TaskRouter.ProgressNotifiesOnTransition | backend/app/routers/tasks.py:442-454 | The notification fires iff the task was not DONE and the update makes it DONE |
| TaskRouter.AtMostOneCompletion | backend/app/routers/tasks.py:442-454 | Along any sequence of progress updates at most one notification fires, and none when the task starts DONE |
| TaskRouter.ConvertUpdate | backend/app/routers/tasks.py:342-361 | An unknown priority is a 400, checked before an unknown status; on success exactly the given fields are converted, to the named values |
| TaskRouter.UpdateChangesOnlyGivenFields | backend/app/routers/tasks.py:340-353 | An update changes only the fields present in the payload, and sets `last_progress_update` to now iff progress is present |
| TaskRouter.RowUpdateKeepsIds | backend/app/routers/tasks.py:352-353 | Rewriting a row without changing its id keeps ids unique and below the next id |
| TaskRouter.TaskBoard.constructor | backend/app/routers/tasks.py:237-265 | An empty task table over the given projects, with the id counter at 1 |
| TaskRouter.TaskBoard.CreateTask | backend/app/routers/tasks.py:237-270 | 404 for a missing project before the 403 check, then 400 for an unknown priority or status; when the project exists, the caller may access it and both enums parse, it succeeds, appending exactly one task with the next id, the given fields and progress 0 |
| TaskRouter.TaskBoard.UpdateTaskProgress | backend/app/routers/tasks.py:417-454 | Authorisation errors change nothing; otherwise only the task's row changes: progress and `last_progress_update` always become the new values, the status follows `NextStatus`, and one notice is recorded iff the task was not DONE and is now |
| TaskRouter.TaskBoard.UpdateTask | backend/app/routers/tasks.py:319-365 | Authorisation errors, then conversion errors, change nothing; otherwise only the task's row changes, to `Updated`, and one notice is recorded iff the task was not DONE and is now |
| TaskRouter.TaskBoard.DeleteTask | backend/app/routers/tasks.py:504-527 | Authorisation errors change nothing; otherwise exactly the task's row is removed, no row with that id remains, and the message names the task |
| TaskRouter.RemovingTaskKeepsIds | backend/app/routers/tasks.py:521-523 | Removing one task keeps the ids unique and below the id counter, and no remaining task has the removed id |
| AuthService.UserByUsername | backend/app/services/auth_service.py:57-59 | Finds a user with the username, or none iff no row has it |
| AuthService.UserRegistry.constructor | backend/app/services/auth_service.py:71-82 | An empty user table, with the id counter at 1 |
| AuthService.UserRegistry.RegisterUser | backend/app/services/auth_service.py:46-84 | A taken e-mail is a 400 checked before a taken username; either error leaves the table unchanged; otherwise exactly one user is appended with the next id, the password's hash and the regular role, and e-mails, usernames and ids stay unique |
| AuthService.AuthenticateUser | backend/app/services/auth_service.py:113-138 | Login succeeds iff a user has the e-mail and the password verifies against their hash; every failure is the same 401; success yields token type "bearer", that user, and claims naming their id and e-mail |
| AuthService.LoginFailuresAlike | backend/app/services/auth_service.py:113-123 | An unknown e-mail and a wrong password give identical results |
| AuthService.GetUserById | backend/app/services/auth_service.py:155-163 | Returns a user with the id, or 404 "User not found" iff there is none |
| AuthService.GetUserByEmail | backend/app/services/auth_service.py:180-188 | Returns a user with the e-mail, or 404 "User not found" iff there is none |
| AuthService.LookupsFindTheRow | backend/app/services/auth_service.py:155-188 | With unique keys, every user is found by their own id and by their own e-mail |
| AuthService.RegisteredUserCanLogIn | backend/app/services/auth_service.py:68-138 | Right after a registration the new user logs in with the same password and gets claims naming their id; another password is refused |
| Webhooks.NewUserStatus | backend/app/routers/webhooks.py:300 | SUCCESS iff the e-mail was sent and the demo project created, otherwise FAILED |
| Webhooks.DeployStatus | backend/app/routers/webhooks.py:406 | SUCCESS iff the status is exactly "success", otherwise FAILED |
| Webhooks.AutomationLogStatus | backend/app/routers/webhooks.py:439-442 | A known status string is kept and an unknown one becomes FAILED |
| Webhooks.AutomationLogStatusKeepsKnown | backend/app/routers/webhooks.py:439-442 | Every status survives the round trip through its name |
| Webhooks.OwnerName | backend/app/routers/webhooks.py:181 | The owner's full name when present and non-empty, otherwise the username |
| Webhooks.ProjectOwnerEmail | backend/app/routers/webhooks.py:161-182 | 404 iff the project is missing, then 404 for a missing owner; it succeeds iff both rows exist, returning the project's and its owner's fields |
| Webhooks.TaskOwnerEmail | backend/app/routers/webhooks.py:208-243 | 404 with the task message for a missing task, then with the project message for its missing project, then with the owner message for the missing owner; when all three rows exist it succeeds with the task and its project's owner |
| Webhooks.TaskOwnerIsProjectOwner | backend/app/routers/webhooks.py:216-242 | For an existing task, the task lookup succeeds iff the project lookup does, and both give the same owner contact |
| Webhooks.AutomationInbox.constructor | backend/app/routers/webhooks.py:356-365 | Empty forecast and log tables over the given tasks |
| Webhooks.AutomationInbox.HandleNewUser | backend/app/routers/webhooks.py:298-314 | Appends one log whose status is `NewUserStatus`, and changes nothing else; the store invariant is kept |
| Webhooks.AutomationInbox.HandleForecastComplete | backend/app/routers/webhooks.py:339-384 | 404 for a missing task before the 400 for an unknown risk level; either error adds no record; success appends exactly one forecast and one SUCCESS log |
| Webhooks.AutomationInbox.HandleDeploySuccess | backend/app/routers/webhooks.py:404-422 | Appends one log whose status is `DeployStatus`, and changes nothing else; the store invariant is kept |
| Webhooks.AutomationInbox.HandleAutomationLog | backend/app/routers/webhooks.py:439-458 | Never rejects; appends one log with `AutomationLogStatus` of the given status, and changes nothing else; the store invariant is kept |
| Admin.CountStatus | backend/app/routers/admin.py:78-80 | Counts tasks with a status; at most the number of tasks |
| Admin.StatusCountsPartition | backend/app/routers/admin.py:77-80 | The four status counts add up to the number of tasks |
| Admin.ProjectIds | backend/app/routers/admin.py:73 | `[p.id for p in projects]`, position by position |
| Admin.TaskIds | backend/app/routers/admin.py:83 | `[t.id for t in tasks]`, position by position |
| Admin.GetUserDetail | backend/app/routers/admin.py:61-87 | 404 iff the user is missing; the projects are the project table filtered by owner, in table order with their multiplicity, and the tasks are the task table filtered to those projects' ids, so `total_projects` and `total_tasks` are the numbers of those rows; the counts are the status counts over them; the high-risk count is the number of high or critical forecasts on those tasks, so 0 when there are none |
| Admin.ProjectTasks | backend/app/routers/admin.py:73-74 | The tasks kept are exactly `Filter(tasks, InProjects(ProjectIds(owned)))`, the `in_` query on the project ids, also when there are no projects; each is in one of the given projects and every task of those projects is kept |
| Admin.NoProjectsNoTasks | backend/app/routers/admin.py:74 | No task is in a project of an empty id list, so the `if project_ids else []` branch agrees with the query |
| Admin.NoTasksNoHighRisk | backend/app/routers/admin.py:83-87 | No forecast counts as high risk on an empty list of tasks, so the `if task_ids else 0` branch agrees with the count |
| Admin.UserStatusCountsBounded | backend/app/routers/admin.py:77-80 | done + in progress + todo never exceeds the total, with equality iff no task is blocked |
| Admin.GroupRowsCount | backend/app/routers/admin.py:205-207 | Each `GROUP BY status` row carries the positive count of its own status |
| Admin.GroupRowsDistinct | backend/app/routers/admin.py:205-207 | No status has two rows |
| Admin.GroupRowsComplete | backend/app/routers/admin.py:205-207 | Every status that occurs has a row |
| Admin.GroupByStatusRows | backend/app/routers/admin.py:205-207 | The grouped rows are one per occurring status, with its count |
| Admin.StatusCountMap | backend/app/routers/admin.py:209 | The dictionary's keys are exactly the row statuses |
| Admin.StatusCountMapHasRow | backend/app/routers/admin.py:209 | With distinct statuses, each maps to its own row's count |
| Admin.ReportedStatusCount | backend/app/routers/admin.py:205-233 | `status_counts.get(s, 0)` is the number of tasks with status s; the default 0 stands exactly for an absent status |
| Admin.GetAdminStats | backend/app/routers/admin.py:196-233 | `admin_users` and `normal_users` count the users with each role and add up to the user total; the todo, in-progress and done counts read from the grouped query equal the number of tasks with each status, and add up to at most the task total; the high-risk count is the number of high or critical forecasts; the project, forecast, simulation-log and automation-log totals are the table sizes |
| Admin.RolesPartition | backend/app/routers/admin.py:196-198 | Admins and regular users add up to all users |
| Admin.CascadeKeepsOwners | backend/app/routers/admin.py:172 | After a deletion, every remaining project's owner still exists |
| Admin.CascadeKeepsProjects | backend/app/routers/admin.py:172 | After a deletion, every remaining task's project still exists |
| Admin.CascadeKeepsTasks | backend/app/routers/admin.py:172 | After a deletion, every remaining forecast's task still exists |
| Admin.AdminStore.constructor | backend/app/routers/admin.py:129-178 | A store over four given tables whose foreign keys resolve, which is the referential-integrity invariant `DeleteUser` keeps |
| Admin.AdminStore.DeleteUser | backend/app/routers/admin.py:152-178 | Deleting oneself is a 400 before any lookup; a missing user is a 404; errors change nothing; otherwise the user, their projects, those projects' tasks and those tasks' forecasts are removed, integrity is kept, and the message gives the username and the number of projects removed |
| Admin.DeletionRemovesOwnedRows | backend/app/routers/admin.py:135-178 | After a deletion no row of the user, of their projects or of those projects' tasks remains, and every other user and project is kept |
| Forecasts.VisibleMeaning | backend/app/routers/forecasts.py:46-52 | An admin sees the forecasts of every existing task; a regular user exactly those on tasks of existing projects they own |
| Forecasts.InsertAddsOne | backend/app/routers/forecasts.py:69 | Inserting a row into a sequence adds exactly that row |
| Forecasts.InsertKeepsOrder | backend/app/routers/forecasts.py:69 | Inserting a row into a newest-first sequence keeps it newest first |
| Forecasts.SortIsNewestFirstPermutation | backend/app/routers/forecasts.py:69 | `order_by(created_at.desc())`: the sorted sequence is newest first and a permutation of the input |
| Forecasts.SortKeepsRows | backend/app/routers/forecasts.py:69 | A row is in the sorted list iff it is in the input |
| Forecasts.TaskNameOf | backend/app/routers/forecasts.py:80-81 | The task name is present iff a task with the forecast's task id exists, and is that task's name |
| Forecasts.Enrich | backend/app/routers/forecasts.py:78-94 | One view per forecast, in order, each with its task name |
| Forecasts.ParseRiskFilter | backend/app/routers/forecasts.py:58-66 | A non-empty unknown risk level is a 400 with the listing's message; an absent or empty one is no filter; a known one names the level |
| Forecasts.GetForecasts | backend/app/routers/forecasts.py:44-96 | 400 iff the risk filter is a non-empty unknown level; `total` counts every visible forecast matching the filters; the page has min(limit, total - skip) rows; each is visible and matches the filters; the page is the `skip`/`limit` cut of some newest-first permutation of all matching rows |
| Forecasts.MatchingRow | backend/app/routers/forecasts.py:46-66 | The query keeps a forecast iff it is visible to the caller and matches the task and risk filters |
| Forecasts.PageRowsMatch | backend/app/routers/forecasts.py:46-75 | Every row of the page is visible to the caller and matches the filters |
| Forecasts.NewestPage | backend/app/routers/forecasts.py:69-75 | The page has min(limit, rows after skip) rows, all from the matching rows, newest first, and it is the `skip`/`limit` cut of some newest-first permutation of the matching rows |
| Forecasts.WholePageHasRow | backend/app/routers/forecasts.py:69-75 | A page from the first row that is long enough holds every matching row |
| Forecasts.ListingIsComplete | backend/app/routers/forecasts.py:44-96 | Every visible forecast matching the filters is counted in `total` and is listed when the page covers all rows |
| Forecasts.GetLatestForecasts | backend/app/routers/forecasts.py:119-155 | Every returned forecast is the largest-id forecast of its task and visible to the caller; `total` is the number returned |
| Forecasts.LatestIsComplete | backend/app/routers/forecasts.py:119-134 | Every visible largest-id forecast is returned |
| Forecasts.LatestOfSameTask | backend/app/routers/forecasts.py:119-122 | Two largest-id forecasts of the same task have the same id |
| Forecasts.LatestIsOnePerTask | backend/app/routers/forecasts.py:119-128 | With unique forecast ids, no task has two latest forecasts |

## Left out

- Password hashing (bcrypt) and JWT encoding and signing are foreign
  libraries. A hash is the injective `HashPassword`, and a token is
  represented by the claims it carries (`AccessClaims`) or by its decoded
  `exp` claim (`ExpClaim`). `verify_password`, `get_password_hash`,
  `create_access_token`, `create_token`, `create_refresh_token`,
  `verify_token`, `decode_token_payload` and the `get_current_*`
  dependencies are not part of this model.
- `AuthService.RegisteredUserCanLogIn`: "any other password is refused" holds of the injective `HashPassword`, not of bcrypt, which reads only the first 72 bytes of a password; registration puts no upper bound on the password's length, so a longer password that shares those bytes would also log in.
- `AuthUtils.ValidatePasswordStrength`, `AuthUtils.CalculatePasswordStrength`: `\d` is modelled as the ASCII digits 0-9; Python's `re` also matches other Unicode decimal digits.
- `AuthUtils.TokenExpirationTime`: an `exp` beyond the platform's `time_t` range makes `datetime.utcfromtimestamp` raise `OverflowError` or `OSError`, which the source does not catch, so the request fails instead of the token counting as expired. The model has only the `ValueError`/`TypeError` outcome (`BadExp`) for a timestamp outside years 1..9999.
- `notify_task_completed` performs network I/O. The model records only
  *whether* it is called, and with which arguments, as a `CompletionNotice`.
- SQLAlchemy sessions, commits and the response dictionaries are not
  modelled. This includes the `project_name`, `owner_name` and timestamp
  fields added to task responses. Row order is table order where the
  queries leave it unspecified.
- `Forecasts.SortIsNewestFirstPermutation`: rows with equal `created_at` keep their table order; the database may return them in any order.
- Joins are modelled as lookups by id, so a row is never repeated by a join
  with duplicate ids.
- `TaskRouter.UpdateTask`: the payload fields are absent or present with a value. An explicit `null`, which the source would also write, is not represented.
- `TaskRouter.ConvertUpdate`, `TaskRouter.TaskBoard.CreateTask`: the 400 detail embeds the text of Python's `ValueError` as `'<value>' is not a valid <Enum>`, the usual enum message. Python builds that message with `repr`, so for a value containing a single quote, a backslash or a non-printable character the source's quoting and escaping differ from the model's plain single quotes.
- Line 331 of `backend/app/routers/tasks.py` is not indented past the
  `if` on line 330, so the file does not parse as written. The update
  handler is modelled with the authorisation rule of its sibling handlers.
- The enum values come from model files that are not part of this model.
  They are taken as todo/in_progress/done/blocked, low/medium/high/critical,
  success/failed/running and admin/user, as the routers' messages and
  filters use them. They are taken as string enums, so the comparisons with
  plain strings (`role != "admin"`, `status_counts.get("todo", 0)`) hold.
- Floating-point fields (`estimated_hours`, `actual_hours`,
  `risk_percentage`) are opaque `real` values. The model does no
  arithmetic on them.
- `Admin.AdminStore.DeleteUser`: the cascade to projects, tasks and forecasts is the one the handler's docstring describes, carried out by the database. Simulation logs and automation logs are not part of the store.
- The n8n listing endpoints (`get_projects_for_n8n`, `get_tasks_for_n8n`,
  `get_latest_forecasts_for_n8n`), `get_all_users_admin` and `logout_user`
  only assemble dictionaries or return constants. They are not modelled.
- The JSON `input_data` and `output_data` of automation logs are not kept.
- The admin-only and logged-in-only request dependencies are not modelled;
  the handlers are modelled as they run once these checks have passed.
- Line 17 of `backend/app/routers/admin.py` imports `require_admin` from
  `backend/app/utils/auth.py`, which defines no such name (its admin
  dependency is `get_current_admin_user`, line 184), so the admin module
  fails to import as written. The admin handlers are modelled as if their
  dependency were `get_current_admin_user`.
- Query parameter bounds that FastAPI enforces (`skip >= 0`,
  `1 <= limit <= 1000`) and the payload bound `0 <= risk_percentage <= 100`
  are preconditions.
- The `WWW-Authenticate` header of the login 401 is not modelled.

=== FILE: Admin.dfy ===
/** The admin endpoints: a user's detail page with its task statistics, the
    deletion of a user together with everything they own, and the system-wide
    statistics. Only admins reach these handlers; that check belongs to the
    request dependencies and is not repeated here. */
module Admin {
  import opened Common
  import opened Models

  const UserMissingDetail: string := "Người dùng không tồn tại"
  const SelfDeleteDetail: string := "Không thể xóa tài khoản admin hiện tại"

  // ---------------------------------------------------------------------------
  // Counting
  // ---------------------------------------------------------------------------

  /** `len([t for t in tasks if t.status == status])`. */
  function CountStatus(tasks: seq<Task>, status: TaskStatus): (n: nat)
    ensures n <= |tasks|
  {
    CountWhere(tasks, (t: Task) => t.status == status)
  }

  /** Every task has exactly one of the four statuses. */
  lemma {:induction false} StatusCountsPartition(tasks: seq<Task>)
    ensures CountStatus(tasks, Todo) + CountStatus(tasks, InProgress) + CountStatus(tasks, Done)
      + CountStatus(tasks, Blocked) == |tasks|
  {
    if |tasks| > 0 {
      StatusCountsPartition(tasks[1..]);
    }
  }

  /** The forecast risk levels the statistics call high. */
  predicate IsHighRisk(f: ForecastLog)
  {
    f.riskLevel == HighRisk || f.riskLevel == CriticalRisk
  }

  /** A high or critical forecast on one of the tasks `ids`. */
  function HighRiskOn(ids: seq<int>): ForecastLog -> bool
  {
    (f: ForecastLog) => f.taskId in ids && IsHighRisk(f)
  }

  /** The ids of `rows`, in order, as `[p.id for p in projects]`. */
  function ProjectIds(projects: seq<Project>): (ids: seq<int>)
    ensures |ids| == |projects|
    ensures forall i :: 0 <= i < |ids| ==> ids[i] == projects[i].id
  {
    if |projects| == 0 then [] else [projects[0].id] + ProjectIds(projects[1..])
  }

  function TaskIds(tasks: seq<Task>): (ids: seq<int>)
    ensures |ids| == |tasks|
    ensures forall i :: 0 <= i < |ids| ==> ids[i] == tasks[i].id
  {
    if |tasks| == 0 then [] else [tasks[0].id] + TaskIds(tasks[1..])
  }

  // ---------------------------------------------------------------------------
  // GET /api/admin/users/{user_id}
  // ---------------------------------------------------------------------------

  datatype UserStats = UserStats(
    totalProjects: nat,
    totalTasks: nat,
    completedTasks: nat,
    inProgressTasks: nat,
    todoTasks: nat,
    highRiskForecasts: nat)

  datatype UserDetail = UserDetail(user: User, projects: seq<Project>, tasks: seq<Task>, stats: UserStats)

  /** The user's projects, the tasks in them (none when there are no
      projects), the status counts over those tasks, and the high-risk
      forecasts on them (none when there are no tasks). */
  function GetUserDetail(users: seq<User>, projects: seq<Project>, tasks: seq<Task>, forecasts: seq<ForecastLog>,
                         userId: int)
    : (r: Result<UserDetail>)
    ensures r.Err? <==> forall j :: 0 <= j < |users| ==> users[j].id != userId
    ensures r.Err? ==> r.error == HttpError(NotFound, UserMissingDetail)
    ensures r.Ok? ==> r.value.user in users && r.value.user.id == userId
    ensures r.Ok? ==> forall i :: 0 <= i < |r.value.projects| ==>
      r.value.projects[i] in projects && r.value.projects[i].ownerId == userId
    ensures r.Ok? ==> forall j :: 0 <= j < |projects| && projects[j].ownerId == userId ==> projects[j] in r.value.projects
    ensures r.Ok? ==> forall i :: 0 <= i < |r.value.tasks| ==>
      r.value.tasks[i] in tasks && exists p :: p in r.value.projects && p.id == r.value.tasks[i].projectId
    ensures r.Ok? ==>
      forall j, p :: 0 <= j < |tasks| && p in r.value.projects && tasks[j].projectId == p.id ==> tasks[j] in r.value.tasks
    ensures r.Ok? ==> r.value.stats.totalProjects == |r.value.projects| && r.value.stats.totalTasks == |r.value.tasks|
    ensures r.Ok? ==>
      r.value.stats.completedTasks == CountStatus(r.value.tasks, Done)
      && r.value.stats.inProgressTasks == CountStatus(r.value.tasks, InProgress)
      && r.value.stats.todoTasks == CountStatus(r.value.tasks, Todo)
    ensures r.Ok? && r.value.tasks == [] ==> r.value.stats.highRiskForecasts == 0
    ensures r.Ok? ==> r.value.stats.highRiskForecasts <= |forecasts|
    ensures r.Ok? ==> r.value.stats.highRiskForecasts == CountWhere(forecasts, HighRiskOn(TaskIds(r.value.tasks)))
    ensures r.Ok? ==>
      r.value.projects == Filter(projects, OwnedBy(userId))
      && r.value.tasks == Filter(tasks, InProjects(ProjectIds(r.value.projects)))
  {
    match UserById(users, userId)
    case None => Err(HttpError(NotFound, UserMissingDetail))
    case Some(user) =>
      var owned := Filter(projects, OwnedBy(userId));
      var userTasks := ProjectTasks(tasks, owned);
      var taskIds := TaskIds(userTasks);
      var highRisk :=
        if taskIds == [] then NoTasksNoHighRisk(forecasts); 0 else CountWhere(forecasts, HighRiskOn(taskIds));
      var stats := UserStats(|owned|, |userTasks|, CountStatus(userTasks, Done), CountStatus(userTasks, InProgress),
                             CountStatus(userTasks, Todo), highRisk);
      Ok(UserDetail(user, owned, userTasks, stats))
  }

  /** The tasks of `owned`, as the `in_` query on their ids; none when there
      are no projects. */
  function ProjectTasks(tasks: seq<Task>, owned: seq<Project>): (r: seq<Task>)
    ensures forall i :: 0 <= i < |r| ==> r[i] in tasks && exists p :: p in owned && p.id == r[i].projectId
    ensures forall j, p :: 0 <= j < |tasks| && p in owned && tasks[j].projectId == p.id ==> tasks[j] in r
    ensures r == Filter(tasks, InProjects(ProjectIds(owned)))
  {
    var projectIds := ProjectIds(owned);
    if projectIds == [] then NoProjectsNoTasks(tasks); [] else Filter(tasks, InProjects(projectIds))
  }

  /** No task is in a project of an empty id list, so the `if project_ids
      else []` shortcut agrees with the query. */
  lemma NoProjectsNoTasks(tasks: seq<Task>)
    ensures Filter(tasks, InProjects([])) == []
  {
  }

  /** No forecast is on a task of an empty id list. */
  lemma NoTasksNoHighRisk(forecasts: seq<ForecastLog>)
    ensures CountWhere(forecasts, HighRiskOn([])) == 0
  {
  }

  /** Blocked tasks are counted in the total but in none of the three status
      counts, so those never add up to more than the total. */
  lemma UserStatusCountsBounded(users: seq<User>, projects: seq<Project>, tasks: seq<Task>,
                                forecasts: seq<ForecastLog>, userId: int)
    requires GetUserDetail(users, projects, tasks, forecasts, userId).Ok?
    ensures var s := GetUserDetail(users, projects, tasks, forecasts, userId).value.stats;
      s.completedTasks + s.inProgressTasks + s.todoTasks <= s.totalTasks
    ensures var d := GetUserDetail(users, projects, tasks, forecasts, userId).value;
      d.stats.completedTasks + d.stats.inProgressTasks + d.stats.todoTasks == d.stats.totalTasks
      <==> CountStatus(d.tasks, Blocked) == 0
  {
    StatusCountsPartition(GetUserDetail(users, projects, tasks, forecasts, userId).value.tasks);
  }

  // ---------------------------------------------------------------------------
  // GET /api/admin/stats
  // ---------------------------------------------------------------------------

  const AllStatuses: seq<TaskStatus> := [Todo, InProgress, Done, Blocked]

  /** The rows of `GROUP BY status`: a `(status, count)` row for each status
      that occurs, in the order of `statuses`. */
  function GroupRows(tasks: seq<Task>, statuses: seq<TaskStatus>): seq<(TaskStatus, nat)>
  {
    if |statuses| == 0 then []
    else
      var rest := GroupRows(tasks, statuses[1..]);
      if CountStatus(tasks, statuses[0]) > 0 then [(statuses[0], CountStatus(tasks, statuses[0]))] + rest
      else rest
  }

  function GroupByStatus(tasks: seq<Task>): seq<(TaskStatus, nat)>
  {
    GroupRows(tasks, AllStatuses)
  }

  /** Each row carries the positive count of its own status. */
  predicate RowsCount(tasks: seq<Task>, rows: seq<(TaskStatus, nat)>)
  {
    forall i :: 0 <= i < |rows| ==> rows[i].1 == CountStatus(tasks, rows[i].0) && rows[i].1 > 0
  }

  /** No status has two rows. */
  predicate DistinctKeys(rows: seq<(TaskStatus, nat)>)
  {
    forall i, j :: 0 <= i < j < |rows| ==> rows[i].0 != rows[j].0
  }

  /** Each row carries the count of its status, which is positive, and the
      status is one of those grouped over. */
  lemma {:induction false} GroupRowsCount(tasks: seq<Task>, statuses: seq<TaskStatus>)
    ensures RowsCount(tasks, GroupRows(tasks, statuses))
    ensures forall i :: 0 <= i < |GroupRows(tasks, statuses)| ==> GroupRows(tasks, statuses)[i].0 in statuses
  {
    if |statuses| > 0 {
      var rest := GroupRows(tasks, statuses[1..]);
      var rows := GroupRows(tasks, statuses);
      GroupRowsCount(tasks, statuses[1..]);
      forall i | 0 <= i < |rows|
        ensures rows[i].1 == CountStatus(tasks, rows[i].0) && rows[i].1 > 0 && rows[i].0 in statuses
      {
        var d := if CountStatus(tasks, statuses[0]) > 0 then 1 else 0;
        if i >= d {
          assert rows[i] == rest[i - d];
          var k :| 0 <= k < |statuses[1..]| && statuses[1..][k] == rest[i - d].0;
          assert statuses[k + 1] == rows[i].0;
        }
      }
    }
  }

  /** Grouping over distinct statuses gives rows with distinct statuses. */
  lemma {:induction false} GroupRowsDistinct(tasks: seq<Task>, statuses: seq<TaskStatus>)
    requires forall i, j :: 0 <= i < j < |statuses| ==> statuses[i] != statuses[j]
    ensures DistinctKeys(GroupRows(tasks, statuses))
  {
    if |statuses| > 0 {
      var rest := GroupRows(tasks, statuses[1..]);
      var rows := GroupRows(tasks, statuses);
      GroupRowsDistinct(tasks, statuses[1..]);
      GroupRowsCount(tasks, statuses[1..]);
      if CountStatus(tasks, statuses[0]) > 0 {
        forall i, j | 0 <= i < j < |rows|
          ensures rows[i].0 != rows[j].0
        {
          assert rows[j] == rest[j - 1];
          if i == 0 {
            var k :| 0 <= k < |statuses[1..]| && statuses[1..][k] == rest[j - 1].0;
            assert statuses[k + 1] == rows[j].0;
          } else {
            assert rows[i] == rest[i - 1];
          }
        }
      }
    }
  }

  /** Every grouped status that occurs in `tasks` has a row. */
  lemma {:induction false} GroupRowsComplete(tasks: seq<Task>, statuses: seq<TaskStatus>, k: nat)
    requires k < |statuses| && CountStatus(tasks, statuses[k]) > 0
    ensures exists i :: 0 <= i < |GroupRows(tasks, statuses)| && GroupRows(tasks, statuses)[i].0 == statuses[k]
  {
    var rows := GroupRows(tasks, statuses);
    if k == 0 {
      assert rows[0].0 == statuses[0];
    } else {
      assert statuses[1..][k - 1] == statuses[k];
      GroupRowsComplete(tasks, statuses[1..], k - 1);
      var rest := GroupRows(tasks, statuses[1..]);
      var i :| 0 <= i < |rest| && rest[i].0 == statuses[k];
      var d := if CountStatus(tasks, statuses[0]) > 0 then 1 else 0;
      assert rows[i + d] == rest[i];
    }
  }

  /** The `GROUP BY status` rows: one per status that occurs, with its count,
      none for a status that does not occur, no status twice. */
  lemma GroupByStatusRows(tasks: seq<Task>)
    ensures RowsCount(tasks, GroupByStatus(tasks)) && DistinctKeys(GroupByStatus(tasks))
    ensures forall s :: CountStatus(tasks, s) > 0 ==>
      exists i :: 0 <= i < |GroupByStatus(tasks)| && GroupByStatus(tasks)[i].0 == s
  {
    GroupRowsCount(tasks, AllStatuses);
    GroupRowsDistinct(tasks, AllStatuses);
    forall s | CountStatus(tasks, s) > 0
      ensures exists i :: 0 <= i < |GroupByStatus(tasks)| && GroupByStatus(tasks)[i].0 == s
    {
      var k := match s case Todo => 0 case InProgress => 1 case Done => 2 case Blocked => 3;
      assert AllStatuses[k] == s;
      GroupRowsComplete(tasks, AllStatuses, k);
      var i :| 0 <= i < |GroupRows(tasks, AllStatuses)| && GroupRows(tasks, AllStatuses)[i].0 == AllStatuses[k];
      assert GroupByStatus(tasks)[i].0 == s;
    }
  }

  /** `{status: count for status, count in rows}`: a later row for the same
      key would overwrite an earlier one. */
  function StatusCountMap(rows: seq<(TaskStatus, nat)>): (m: map<TaskStatus, nat>)
    ensures forall s :: s in m <==> exists i :: 0 <= i < |rows| && rows[i].0 == s
  {
    if |rows| == 0 then map[]
    else
      var last := rows[|rows| - 1];
      var m := StatusCountMap(rows[..|rows| - 1]);
      assert forall i :: 0 <= i < |rows| - 1 ==> rows[..|rows| - 1][i] == rows[i];
      m[last.0 := last.1]
  }

  /** `status_counts.get(status, 0)`. */
  function CountOrZero(m: map<TaskStatus, nat>, s: TaskStatus): nat
  {
    if s in m then m[s] else 0
  }

  /** With distinct keys, each key maps to the count of its own row. */
  lemma {:induction false} StatusCountMapHasRow(rows: seq<(TaskStatus, nat)>, i: nat)
    requires i < |rows|
    requires DistinctKeys(rows)
    ensures rows[i].0 in StatusCountMap(rows) && StatusCountMap(rows)[rows[i].0] == rows[i].1
  {
    if i < |rows| - 1 {
      var prefix := rows[..|rows| - 1];
      assert prefix[i] == rows[i];
      StatusCountMapHasRow(prefix, i);
    }
  }

  /** The default of 0 stands exactly for a status no task has: for every
      status the reported figure is the number of tasks with it. */
  lemma ReportedStatusCount(tasks: seq<Task>, s: TaskStatus)
    ensures CountOrZero(StatusCountMap(GroupByStatus(tasks)), s) == CountStatus(tasks, s)
  {
    var rows := GroupByStatus(tasks);
    GroupByStatusRows(tasks);
    if CountStatus(tasks, s) > 0 {
      var i :| 0 <= i < |rows| && rows[i].0 == s;
      StatusCountMapHasRow(rows, i);
    }
  }

  datatype SystemStats = SystemStats(
    totalUsers: nat, adminUsers: nat, normalUsers: nat,
    totalProjects: nat,
    totalTasks: nat, todoTasks: nat, inProgressTasks: nat, doneTasks: nat,
    totalForecasts: nat, highRiskForecasts: nat,
    totalSimulations: nat, totalAutomations: nat)

  /** `GET /api/admin/stats`. Simulation and automation logs enter only
      through their counts. */
  function GetAdminStats(users: seq<User>, projects: seq<Project>, tasks: seq<Task>, forecasts: seq<ForecastLog>,
                         simulationCount: nat, automationCount: nat)
    : (r: SystemStats)
    ensures r.totalUsers == |users| && r.adminUsers + r.normalUsers == r.totalUsers
    ensures r.todoTasks + r.inProgressTasks + r.doneTasks <= r.totalTasks == |tasks|
    ensures r.highRiskForecasts <= r.totalForecasts == |forecasts|
    ensures r.adminUsers == CountWhere(users, IsAdminRow) && r.normalUsers == CountWhere(users, IsUserRow)
    ensures r.todoTasks == CountStatus(tasks, Todo) && r.inProgressTasks == CountStatus(tasks, InProgress)
      && r.doneTasks == CountStatus(tasks, Done)
    ensures r.highRiskForecasts == CountWhere(forecasts, IsHighRisk)
    ensures r.totalProjects == |projects|
    ensures r.totalSimulations == simulationCount && r.totalAutomations == automationCount
  {
    var counts := StatusCountMap(GroupByStatus(tasks));
    ReportedStatusCount(tasks, Todo);
    ReportedStatusCount(tasks, InProgress);
    ReportedStatusCount(tasks, Done);
    StatusCountsPartition(tasks);
    RolesPartition(users);
    SystemStats(
      |users|,
      CountWhere(users, IsAdminRow),
      CountWhere(users, IsUserRow),
      |projects|,
      |tasks|,
      CountOrZero(counts, Todo),
      CountOrZero(counts, InProgress),
      CountOrZero(counts, Done),
      |forecasts|,
      CountWhere(forecasts, IsHighRisk),
      simulationCount,
      automationCount)
  }

  predicate IsAdminRow(u: User) { u.role == Admin }
  predicate IsUserRow(u: User) { u.role == RegularUser }

  /** Every user is an admin or a regular user, and not both. */
  lemma {:induction false} RolesPartition(users: seq<User>)
    ensures CountWhere(users, IsAdminRow) + CountWhere(users, IsUserRow)
      == |users|
  {
    if |users| > 0 {
      RolesPartition(users[1..]);
    }
  }

  // ---------------------------------------------------------------------------
  // DELETE /api/admin/users/{user_id}
  // ---------------------------------------------------------------------------

  function OtherUser(userId: int): User -> bool { (u: User) => u.id != userId }
  function OwnedBy(userId: int): Project -> bool { (p: Project) => p.ownerId == userId }
  function NotOwnedBy(userId: int): Project -> bool { (p: Project) => p.ownerId != userId }
  function InProjects(ids: seq<int>): Task -> bool { (t: Task) => t.projectId in ids }
  function NotInProjects(ids: seq<int>): Task -> bool { (t: Task) => t.projectId !in ids }
  function NotOnTasks(ids: seq<int>): ForecastLog -> bool { (f: ForecastLog) => f.taskId !in ids }

  /** Every project's owner exists. */
  ghost predicate OwnersExist(users: seq<User>, projects: seq<Project>)
  {
    forall i :: 0 <= i < |projects| ==> exists j :: 0 <= j < |users| && users[j].id == projects[i].ownerId
  }

  /** Every task's project exists. */
  ghost predicate ProjectsExist(projects: seq<Project>, tasks: seq<Task>)
  {
    forall i :: 0 <= i < |tasks| ==> exists j :: 0 <= j < |projects| && projects[j].id == tasks[i].projectId
  }

  ghost predicate HasTask(tasks: seq<Task>, taskId: int)
  {
    exists j :: 0 <= j < |tasks| && tasks[j].id == taskId
  }

  /** Every forecast's task exists. */
  ghost predicate TasksExist(tasks: seq<Task>, forecasts: seq<ForecastLog>)
  {
    forall i :: 0 <= i < |forecasts| ==> HasTask(tasks, forecasts[i].taskId)
  }

  /** The ids of the projects a deletion of `userId` removes. */
  function GoneProjectIds(projects: seq<Project>, userId: int): seq<int>
  {
    ProjectIds(Filter(projects, OwnedBy(userId)))
  }

  /** The ids of the tasks a deletion of `userId` removes. */
  function GoneTaskIds(projects: seq<Project>, tasks: seq<Task>, userId: int): seq<int>
  {
    TaskIds(Filter(tasks, InProjects(GoneProjectIds(projects, userId))))
  }

  /** An owned project's id is among the removed project ids. */
  lemma OwnedIdIsGone(projects: seq<Project>, userId: int, j: nat)
    requires j < |projects| && projects[j].ownerId == userId
    ensures projects[j].id in GoneProjectIds(projects, userId)
  {
    var gone := Filter(projects, OwnedBy(userId));
    assert OwnedBy(userId)(projects[j]);
    assert projects[j] in gone;
    var m :| 0 <= m < |gone| && gone[m] == projects[j];
    assert ProjectIds(gone)[m] == projects[j].id;
  }

  /** The id of a task in a removed project is among the removed task ids. */
  lemma TaskIdIsGone(projects: seq<Project>, tasks: seq<Task>, userId: int, j: nat)
    requires j < |tasks| && tasks[j].projectId in GoneProjectIds(projects, userId)
    ensures tasks[j].id in GoneTaskIds(projects, tasks, userId)
  {
    var goneTasks := Filter(tasks, InProjects(GoneProjectIds(projects, userId)));
    assert InProjects(GoneProjectIds(projects, userId))(tasks[j]);
    assert tasks[j] in goneTasks;
    var m :| 0 <= m < |goneTasks| && goneTasks[m] == tasks[j];
    assert TaskIds(goneTasks)[m] == tasks[j].id;
  }

  /** Projects kept by a deletion still have their owner. */
  lemma CascadeKeepsOwners(users: seq<User>, projects: seq<Project>, userId: int)
    requires OwnersExist(users, projects)
    ensures OwnersExist(Filter(users, OtherUser(userId)), Filter(projects, NotOwnedBy(userId)))
  {
    var users' := Filter(users, OtherUser(userId));
    var projects' := Filter(projects, NotOwnedBy(userId));
    forall i | 0 <= i < |projects'|
      ensures exists j :: 0 <= j < |users'| && users'[j].id == projects'[i].ownerId
    {
      var p := projects'[i];
      assert NotOwnedBy(userId)(p);
      var k :| 0 <= k < |projects| && projects[k] == p;
      var j :| 0 <= j < |users| && users[j].id == p.ownerId;
      assert OtherUser(userId)(users[j]);
      assert users[j] in users';
      var j' :| 0 <= j' < |users'| && users'[j'] == users[j];
    }
  }

  /** A task kept by a deletion still has its project. */
  lemma KeptTaskHasProject(projects: seq<Project>, tasks: seq<Task>, userId: int, t: Task)
    requires ProjectsExist(projects, tasks)
    requires t in tasks && t.projectId !in GoneProjectIds(projects, userId)
    ensures exists j ::
      0 <= j < |Filter(projects, NotOwnedBy(userId))| && Filter(projects, NotOwnedBy(userId))[j].id == t.projectId
  {
    var projects' := Filter(projects, NotOwnedBy(userId));
    var k :| 0 <= k < |tasks| && tasks[k] == t;
    var j :| 0 <= j < |projects| && projects[j].id == t.projectId;
    if projects[j].ownerId == userId {
      OwnedIdIsGone(projects, userId, j);
      assert false;
    }
    assert NotOwnedBy(userId)(projects[j]);
    assert projects[j] in projects';
    var j' :| 0 <= j' < |projects'| && projects'[j'] == projects[j];
  }

  /** Tasks kept by a deletion still have their project. */
  lemma CascadeKeepsProjects(projects: seq<Project>, tasks: seq<Task>, userId: int)
    requires ProjectsExist(projects, tasks)
    ensures ProjectsExist(Filter(projects, NotOwnedBy(userId)),
                          Filter(tasks, NotInProjects(GoneProjectIds(projects, userId))))
  {
    var goneIds := GoneProjectIds(projects, userId);
    var tasks' := Filter(tasks, NotInProjects(goneIds));
    forall i | 0 <= i < |tasks'|
      ensures exists j ::
        0 <= j < |Filter(projects, NotOwnedBy(userId))| && Filter(projects, NotOwnedBy(userId))[j].id == tasks'[i].projectId
    {
      FilterMember(tasks, NotInProjects(goneIds), tasks'[i]);
      KeptTaskHasProject(projects, tasks, userId, tasks'[i]);
    }
  }

  /** A forecast kept by a deletion still has its task. */
  lemma KeptForecastHasTask(projects: seq<Project>, tasks: seq<Task>, forecasts: seq<ForecastLog>, userId: int,
                            f: ForecastLog)
    requires TasksExist(tasks, forecasts)
    requires f in forecasts && f.taskId !in GoneTaskIds(projects, tasks, userId)
    ensures HasTask(Filter(tasks, NotInProjects(GoneProjectIds(projects, userId))), f.taskId)
  {
    var goneIds := GoneProjectIds(projects, userId);
    var tasks' := Filter(tasks, NotInProjects(goneIds));
    var k :| 0 <= k < |forecasts| && forecasts[k] == f;
    var j :| 0 <= j < |tasks| && tasks[j].id == f.taskId;
    if tasks[j].projectId in goneIds {
      TaskIdIsGone(projects, tasks, userId, j);
      assert false;
    }
    assert NotInProjects(goneIds)(tasks[j]);
    assert tasks[j] in tasks';
    var j' :| 0 <= j' < |tasks'| && tasks'[j'] == tasks[j];
  }

  /** Forecasts kept by a deletion still have their task. */
  lemma CascadeKeepsTasks(projects: seq<Project>, tasks: seq<Task>, forecasts: seq<ForecastLog>, userId: int)
    requires TasksExist(tasks, forecasts)
    ensures TasksExist(Filter(tasks, NotInProjects(GoneProjectIds(projects, userId))),
                       Filter(forecasts, NotOnTasks(GoneTaskIds(projects, tasks, userId))))
  {
    var goneTaskIds := GoneTaskIds(projects, tasks, userId);
    var forecasts' := Filter(forecasts, NotOnTasks(goneTaskIds));
    forall i | 0 <= i < |forecasts'|
      ensures HasTask(Filter(tasks, NotInProjects(GoneProjectIds(projects, userId))), forecasts'[i].taskId)
    {
      assert NotOnTasks(goneTaskIds)(forecasts'[i]);
      KeptForecastHasTask(projects, tasks, forecasts, userId, forecasts'[i]);
    }
  }

  /** The tables a user deletion reaches. */
  class AdminStore {
    var users: seq<User>
    var projects: seq<Project>
    var tasks: seq<Task>
    var forecasts: seq<ForecastLog>

    ghost predicate Valid()
      reads this
    {
      OwnersExist(users, projects) && ProjectsExist(projects, tasks) && TasksExist(tasks, forecasts)
    }

    /** A store over four tables whose foreign keys all resolve, as the
        database's constraints keep them. */
    constructor (users: seq<User>, projects: seq<Project>, tasks: seq<Task>, forecasts: seq<ForecastLog>)
      requires OwnersExist(users, projects) && ProjectsExist(projects, tasks) && TasksExist(tasks, forecasts)
      ensures Valid()
      ensures this.users == users && this.projects == projects && this.tasks == tasks && this.forecasts == forecasts
    {
      this.users := users;
      this.projects := projects;
      this.tasks := tasks;
      this.forecasts := forecasts;
    }

    /** `DELETE /api/admin/users/{user_id}`: deleting oneself is refused before
        anything is looked up; a missing user is a 404; otherwise the user
        goes, and with them their projects, the tasks in those projects and
        the forecasts on those tasks. */
    method DeleteUser(currentAdmin: User, userId: int) returns (r: Result<string>)
      requires Valid()
      modifies this
      ensures Valid()
      ensures userId == currentAdmin.id ==> r == Err(HttpError(BadRequest, SelfDeleteDetail))
      ensures userId != currentAdmin.id && UserById(old(users), userId).None? ==>
        r == Err(HttpError(NotFound, UserMissingDetail))
      ensures r.Err? ==>
        users == old(users) && projects == old(projects) && tasks == old(tasks) && forecasts == old(forecasts)
      ensures (userId != currentAdmin.id && UserById(old(users), userId).Some?) ==>
        r == Ok("Đã xóa thành công user '" + UserById(old(users), userId).value.username + "' và "
                + IntToString(CountWhere(old(projects), OwnedBy(userId))) + " projects liên quan")
        && users == Filter(old(users), OtherUser(userId))
        && projects == Filter(old(projects), NotOwnedBy(userId))
        && tasks == Filter(old(tasks), NotInProjects(GoneProjectIds(old(projects), userId)))
        && forecasts == Filter(old(forecasts), NotOnTasks(GoneTaskIds(old(projects), old(tasks), userId)))
    {
      if userId == currentAdmin.id {
        return Err(HttpError(BadRequest, SelfDeleteDetail));
      }
      var user := UserById(users, userId);
      if user.None? {
        return Err(HttpError(NotFound, UserMissingDetail));
      }
      var username := user.value.username;
      var projectsCount := CountWhere(projects, OwnedBy(userId));
      var goneIds := GoneProjectIds(projects, userId);
      var goneTaskIds := GoneTaskIds(projects, tasks, userId);
      CascadeKeepsOwners(users, projects, userId);
      CascadeKeepsProjects(projects, tasks, userId);
      CascadeKeepsTasks(projects, tasks, forecasts, userId);
      users := Filter(users, OtherUser(userId));
      projects := Filter(projects, NotOwnedBy(userId));
      tasks := Filter(tasks, NotInProjects(goneIds));
      forecasts := Filter(forecasts, NotOnTasks(goneTaskIds));
      r := Ok("Đã xóa thành công user '" + username + "' và " + IntToString(projectsCount) + " projects liên quan");
    }
  }

  /** After a deletion the user is gone, nothing left is owned by them, no
      task left sits in one of their projects, and every other user, and
      every project of another owner, is still there. */
  lemma DeletionRemovesOwnedRows(users: seq<User>, projects: seq<Project>, tasks: seq<Task>, userId: int)
    ensures forall j :: 0 <= j < |Filter(users, OtherUser(userId))| ==> Filter(users, OtherUser(userId))[j].id != userId
    ensures forall u :: u in users && u.id != userId ==> u in Filter(users, OtherUser(userId))
    ensures forall p :: p in Filter(projects, NotOwnedBy(userId)) ==> p.ownerId != userId
    ensures forall p :: p in projects && p.ownerId != userId ==> p in Filter(projects, NotOwnedBy(userId))
    ensures forall t :: t in Filter(tasks, NotInProjects(GoneProjectIds(projects, userId))) ==>
      forall p :: p in projects && p.ownerId == userId ==> t.projectId != p.id
  {
    forall t | t in Filter(tasks, NotInProjects(GoneProjectIds(projects, userId)))
      ensures forall p :: p in projects && p.ownerId == userId ==> t.projectId != p.id
    {
      forall p | p in projects && p.ownerId == userId
        ensures t.projectId != p.id
      {
        var gone := Filter(projects, OwnedBy(userId));
        assert p in gone;
        var m :| 0 <= m < |gone| && gone[m] == p;
        assert ProjectIds(gone)[m] == p.id;
      }
    }
  }
}

=== FILE: AuthService.dfy ===
/** The authentication service: registering a user in the user table, logging
    in, and fetching a user by id or by e-mail. The table is the
    `UserRegistry`; the password hash is the opaque injective `HashPassword`,
    and the access token is represented by the claims it would carry. */
module AuthService {
  import opened Common
  import opened Models

  const EmailTakenDetail: string := "Email already registered"
  const UsernameTakenDetail: string := "Username already taken"
  const BadCredentialsDetail: string := "Incorrect email or password"
  const UserNotFoundDetail: string := "User not found"

  /** `User.filter(User.username == username).first()`. */
  function UserByUsername(users: seq<User>, username: string): (r: Option<User>)
    ensures r.Some? ==> r.value in users && r.value.username == username
    ensures r.None? <==> forall j :: 0 <= j < |users| ==> users[j].username != username
  {
    match FindFirst(users, (u: User) => u.username == username)
    case None => None
    case Some(k) => Some(users[k])
  }

  /** The e-mail, the username and the id each identify at most one row. */
  ghost predicate UniqueUsers(users: seq<User>)
  {
    forall i, j :: 0 <= i < j < |users| ==>
      users[i].email != users[j].email && users[i].username != users[j].username && users[i].id != users[j].id
  }

  ghost predicate UserIdsBelow(users: seq<User>, nextId: int)
  {
    forall k :: 0 <= k < |users| ==> users[k].id < nextId
  }

  /** The user table. */
  class UserRegistry {
    var users: seq<User>
    var nextId: int

    ghost predicate Valid()
      reads this
    {
      UniqueUsers(users) && UserIdsBelow(users, nextId)
    }

    constructor ()
      ensures Valid() && users == [] && nextId == 1
    {
      users := [];
      nextId := 1;
    }

    /** `register_user`: the e-mail is checked before the username; a new user
        gets the next id, the hash of the password and the regular role. */
    method RegisterUser(email: string, username: string, fullName: Option<string>, password: string)
      returns (r: Result<User>)
      requires Valid()
      modifies this
      ensures Valid()
      ensures UserByEmail(old(users), email).Some? ==>
        r == Err(HttpError(BadRequest, EmailTakenDetail)) && users == old(users) && nextId == old(nextId)
      ensures UserByEmail(old(users), email).None? && UserByUsername(old(users), username).Some? ==>
        r == Err(HttpError(BadRequest, UsernameTakenDetail)) && users == old(users) && nextId == old(nextId)
      ensures UserByEmail(old(users), email).None? && UserByUsername(old(users), username).None? ==>
        r == Ok(User(old(nextId), email, username, fullName, HashPassword(password), RegularUser))
        && users == old(users) + [r.value] && nextId == old(nextId) + 1
    {
      var existingEmail := UserByEmail(users, email);
      if existingEmail.Some? {
        return Err(HttpError(BadRequest, EmailTakenDetail));
      }
      var existingUsername := UserByUsername(users, username);
      if existingUsername.Some? {
        return Err(HttpError(BadRequest, UsernameTakenDetail));
      }
      var hashed := HashPassword(password);
      var newUser := User(nextId, email, username, fullName, hashed, RegularUser);
      users := users + [newUser];
      nextId := nextId + 1;
      r := Ok(newUser);
    }
  }

  /** What the access token is signed over. */
  datatype AccessClaims = AccessClaims(sub: int, email: string)

  datatype LoginResult = LoginResult(claims: AccessClaims, tokenType: string, user: User)

  /** `authenticate_user`. An unknown e-mail and a wrong password fail alike
      (the response also carries `WWW-Authenticate: Bearer`). */
  function AuthenticateUser(users: seq<User>, email: string, password: string): (r: Result<LoginResult>)
    ensures r.Ok? <==> UserByEmail(users, email).Some? && VerifyPassword(password, UserByEmail(users, email).value.passwordHash)
    ensures r.Err? ==> r.error == HttpError(Unauthorized, BadCredentialsDetail)
    ensures r.Ok? ==>
      r.value.tokenType == "bearer" && r.value.user in users && r.value.user.email == email
      && r.value.claims == AccessClaims(r.value.user.id, email)
      && VerifyPassword(password, r.value.user.passwordHash)
  {
    match UserByEmail(users, email)
    case None => Err(HttpError(Unauthorized, BadCredentialsDetail))
    case Some(user) =>
      if !VerifyPassword(password, user.passwordHash) then Err(HttpError(Unauthorized, BadCredentialsDetail))
      else Ok(LoginResult(AccessClaims(user.id, user.email), "bearer", user))
  }

  /** A caller cannot tell an unknown e-mail from a wrong password. */
  lemma LoginFailuresAlike(users: seq<User>, unknownEmail: string, anyPassword: string,
                           knownEmail: string, wrongPassword: string)
    requires forall j :: 0 <= j < |users| ==> users[j].email != unknownEmail
    requires exists j :: 0 <= j < |users| && users[j].email == knownEmail
    requires UniqueUsers(users)
    requires forall j :: 0 <= j < |users| && users[j].email == knownEmail ==>
      users[j].passwordHash != HashPassword(wrongPassword)
    ensures AuthenticateUser(users, unknownEmail, anyPassword) == AuthenticateUser(users, knownEmail, wrongPassword)
  {
    var found := UserByEmail(users, knownEmail);
    assert found.Some?;
    var k :| 0 <= k < |users| && users[k] == found.value;
    assert !VerifyPassword(wrongPassword, users[k].passwordHash);
  }

  /** `get_user_by_id`. */
  function GetUserById(users: seq<User>, id: int): (r: Result<User>)
    ensures r.Ok? ==> r.value in users && r.value.id == id
    ensures r.Err? <==> forall j :: 0 <= j < |users| ==> users[j].id != id
    ensures r.Err? ==> r.error == HttpError(NotFound, UserNotFoundDetail)
  {
    match UserById(users, id)
    case None => Err(HttpError(NotFound, UserNotFoundDetail))
    case Some(u) => Ok(u)
  }

  /** `get_user_by_email`. */
  function GetUserByEmail(users: seq<User>, email: string): (r: Result<User>)
    ensures r.Ok? ==> r.value in users && r.value.email == email
    ensures r.Err? <==> forall j :: 0 <= j < |users| ==> users[j].email != email
    ensures r.Err? ==> r.error == HttpError(NotFound, UserNotFoundDetail)
  {
    match UserByEmail(users, email)
    case None => Err(HttpError(NotFound, UserNotFoundDetail))
    case Some(u) => Ok(u)
  }

  /** With unique keys, a row is found by its own id and by its own e-mail. */
  lemma {:induction false} LookupsFindTheRow(users: seq<User>, k: nat)
    requires UniqueUsers(users) && k < |users|
    ensures GetUserById(users, users[k].id) == Ok(users[k])
    ensures GetUserByEmail(users, users[k].email) == Ok(users[k])
  {
    var byId := GetUserById(users, users[k].id).value;
    var j :| 0 <= j < |users| && users[j] == byId;
    assert j == k;
    var byEmail := GetUserByEmail(users, users[k].email).value;
    var m :| 0 <= m < |users| && users[m] == byEmail;
    assert m == k;
  }

  /** Registration and login fit together: right after a successful
      registration the new user logs in with the same password and gets
      claims naming their id, and a different password is refused. */
  lemma RegisteredUserCanLogIn(users: seq<User>, nextId: int, email: string, username: string,
                               fullName: Option<string>, password: string, otherPassword: string)
    requires UniqueUsers(users) && UserIdsBelow(users, nextId)
    requires forall j :: 0 <= j < |users| ==> users[j].email != email && users[j].username != username
    ensures var u := User(nextId, email, username, fullName, HashPassword(password), RegularUser);
      AuthenticateUser(users + [u], email, password) == Ok(LoginResult(AccessClaims(nextId, email), "bearer", u))
      && (otherPassword != password ==> AuthenticateUser(users + [u], email, otherPassword).Err?)
  {
    var u := User(nextId, email, username, fullName, HashPassword(password), RegularUser);
    var after := users + [u];
    assert after[|users|] == u;
    assert UniqueUsers(after) by {
      forall i, j | 0 <= i < j < |after|
        ensures after[i].email != after[j].email
      {
        if j == |users| {
          assert after[i] == users[i];
        }
      }
      forall i, j | 0 <= i < j < |after|
        ensures after[i].username != after[j].username && after[i].id != after[j].id
      {
        if j == |users| {
          assert after[i] == users[i];
        }
      }
    }
    LookupsFindTheRow(after, |users|);
  }
}

=== FILE: AuthUtils.dfy ===
/** The authentication helpers of the backend: e-mail and password validation,
    the password strength score, token expiry inspection, role checks, error
    formatting, registration-data validation, input sanitising and the
    pagination clamp. Hashing and token encoding are foreign libraries and are
    not part of this module; a decoded token is given to it as its `exp` claim. */
module AuthUtils {
  import opened Common
  import opened Models

  // ---------------------------------------------------------------------------
  // Character classes
  // ---------------------------------------------------------------------------

  /** Python's `str.isspace()`, which is also what `\s` matches in a `str`
      pattern and what `str.strip()` removes. */
  predicate IsSpace(c: char)
  {
    ('\t' <= c <= '\r') || ('\U{1c}' <= c <= '\U{1f}') || c == ' '
    || c == '\U{85}' || c == '\U{a0}' || c == '\U{1680}'
    || ('\U{2000}' <= c <= '\U{200a}') || c == '\U{2028}' || c == '\U{2029}'
    || c == '\U{202f}' || c == '\U{205f}' || c == '\U{3000}'
  }

  predicate IsAsciiLower(c: char) { 'a' <= c <= 'z' }
  predicate IsAsciiUpper(c: char) { 'A' <= c <= 'Z' }
  predicate IsDigit(c: char) { '0' <= c <= '9' }
  /** `[^a-zA-Z\d]`. */
  predicate IsSpecial(c: char) { !IsAsciiLower(c) && !IsAsciiUpper(c) && !IsDigit(c) }

  /** `re.search(r'[a-z]', s)` and its siblings. */
  predicate HasLower(s: string) { exists i :: 0 <= i < |s| && IsAsciiLower(s[i]) }
  predicate HasUpper(s: string) { exists i :: 0 <= i < |s| && IsAsciiUpper(s[i]) }
  predicate HasDigit(s: string) { exists i :: 0 <= i < |s| && IsDigit(s[i]) }
  predicate HasSpecial(s: string) { exists i :: 0 <= i < |s| && IsSpecial(s[i]) }

  // ---------------------------------------------------------------------------
  // validate_email: re.match(r'^[^\s@]+@[^\s@]+\.[^\s@]+$', email)
  // ---------------------------------------------------------------------------

  /** `[^\s@]`. */
  predicate IsEmailChar(c: char) { !IsSpace(c) && c != '@' }

  predicate AllEmailChars(s: string) { forall i :: 0 <= i < |s| ==> IsEmailChar(s[i]) }

  /** The pattern's body matches all of `t`: a non-empty local part, one '@', a
      non-empty host, a '.', and a non-empty final part, no part holding a
      whitespace character or an '@'. */
  ghost predicate EmailShape(t: string)
  {
    exists at, dot ::
      0 < at && at + 1 < dot && dot + 1 < |t| && t[at] == '@' && t[dot] == '.'
      && AllEmailChars(t[..at]) && AllEmailChars(t[at + 1..dot]) && AllEmailChars(t[dot + 1..])
  }

  function IndexOfChar(s: string, c: char): (r: Option<nat>)
    ensures r.Some? ==> r.value < |s| && s[r.value] == c && c !in s[..r.value]
    ensures r.None? <==> c !in s
  {
    if |s| == 0 then None
    else if s[0] == c then Some(0)
    else
      match IndexOfChar(s[1..], c)
      case None => None
      case Some(k) =>
        assert s[..k + 1] == [s[0]] + s[1..][..k];
        Some(k + 1)
  }

  /** Python's `$` also matches just before a single final newline. */
  function StripFinalNewline(s: string): string
  {
    if |s| > 0 && s[|s| - 1] == '\n' then s[..|s| - 1] else s
  }

  /** The pattern's body, matched by splitting at the first '@' and looking for
      a '.' strictly inside what follows. */
  predicate FullMatchEmail(t: string)
  {
    match IndexOfChar(t, '@')
    case None => false
    case Some(at) =>
      var domain := t[at + 1..];
      at > 0 && AllEmailChars(t[..at]) && AllEmailChars(domain)
      && |domain| >= 3 && '.' in domain[1..|domain| - 1]
  }

  predicate ValidateEmail(email: string)
  {
    FullMatchEmail(StripFinalNewline(email))
  }

  lemma FullMatchGivesShape(t: string)
    requires FullMatchEmail(t)
    ensures EmailShape(t)
  {
    var at := IndexOfChar(t, '@').value;
    var domain := t[at + 1..];
    var inner := domain[1..|domain| - 1];
    var k :| 0 <= k < |inner| && inner[k] == '.';
    var dot := at + 2 + k;
    assert t[at + 1..dot] == domain[..k + 1];
    assert t[dot + 1..] == domain[k + 2..];
    assert t[dot] == '.';
    assert AllEmailChars(t[at + 1..dot]);
    assert AllEmailChars(t[dot + 1..]);
  }

  lemma ShapeGivesFullMatch(t: string, at: int, dot: int)
    requires 0 < at && at + 1 < dot && dot + 1 < |t| && t[at] == '@' && t[dot] == '.'
    requires AllEmailChars(t[..at]) && AllEmailChars(t[at + 1..dot]) && AllEmailChars(t[dot + 1..])
    ensures FullMatchEmail(t)
  {
    assert t[at] == '@';
    var found := IndexOfChar(t, '@').value;
    if found < at {
      assert false;
    } else if found > at {
      assert false;
    }
    var domain := t[at + 1..];
    assert domain == t[at + 1..dot] + ['.'] + t[dot + 1..];
    forall i | 0 <= i < |domain|
      ensures IsEmailChar(domain[i])
    {
      if i < dot - at - 1 {
        assert domain[i] == t[at + 1..dot][i];
      } else if i > dot - at - 1 {
        assert domain[i] == t[dot + 1..][i - (dot - at)];
      }
    }
    assert domain[1..|domain| - 1][dot - at - 2] == '.';
  }

  lemma FullMatchIsEmailShape(t: string)
    ensures FullMatchEmail(t) <==> EmailShape(t)
  {
    if FullMatchEmail(t) {
      FullMatchGivesShape(t);
    }
    if EmailShape(t) {
      var at, dot :|
        0 < at && at + 1 < dot && dot + 1 < |t| && t[at] == '@' && t[dot] == '.'
        && AllEmailChars(t[..at]) && AllEmailChars(t[at + 1..dot]) && AllEmailChars(t[dot + 1..]);
      ShapeGivesFullMatch(t, at, dot);
    }
  }

  /** `validate_email` accepts exactly the strings matching the pattern, and
      those followed by one newline. */
  lemma ValidateEmailMeaning(email: string)
    ensures ValidateEmail(email) <==>
      EmailShape(email)
      || (|email| > 0 && email[|email| - 1] == '\n' && EmailShape(email[..|email| - 1]))
  {
    FullMatchIsEmailShape(email);
    if |email| > 0 && email[|email| - 1] == '\n' {
      FullMatchIsEmailShape(email[..|email| - 1]);
    }
  }

  // ---------------------------------------------------------------------------
  // validate_password_strength
  // ---------------------------------------------------------------------------

  const EmptyPasswordIssue: string := "Mật khẩu không được để trống"

  /** The rules checked for a non-empty password, in the order they are checked. */
  datatype PasswordRule = MinLength | MaxLength | NeedsLower | NeedsUpper | NeedsDigit

  const PasswordRules: seq<PasswordRule> := [MinLength, MaxLength, NeedsLower, NeedsUpper, NeedsDigit]

  predicate Violates(rule: PasswordRule, password: string)
  {
    match rule
    case MinLength => |password| < 6
    case MaxLength => |password| > 100
    case NeedsLower => !HasLower(password)
    case NeedsUpper => !HasUpper(password)
    case NeedsDigit => !HasDigit(password)
  }

  function RuleIssue(rule: PasswordRule): string
  {
    match rule
    case MinLength => "Mật khẩu phải có ít nhất 6 ký tự"
    case MaxLength => "Mật khẩu không được vượt quá 100 ký tự"
    case NeedsLower => "Mật khẩu phải chứa ít nhất một chữ thường"
    case NeedsUpper => "Mật khẩu phải chứa ít nhất một chữ hoa"
    case NeedsDigit => "Mật khẩu phải chứa ít nhất một chữ số"
  }

  /** The issue of `rule` if `password` violates it. */
  function IssueIf(rule: PasswordRule, password: string): seq<string>
  {
    if Violates(rule, password) then [RuleIssue(rule)] else []
  }

  /** The issue of every rule in `rules` that `password` violates, in rule order. */
  function IssuesFor(rules: seq<PasswordRule>, password: string): (issues: seq<string>)
    ensures |issues| <= |rules|
    ensures issues == [] <==> forall k :: 0 <= k < |rules| ==> !Violates(rules[k], password)
    ensures forall m :: 0 <= m < |issues| ==> exists k :: 0 <= k < |rules| && issues[m] == RuleIssue(rules[k])
  {
    if |rules| == 0 then []
    else IssueIf(rules[0], password) + IssuesFor(rules[1..], password)
  }

  lemma IssuesForCons(rule: PasswordRule, rest: seq<PasswordRule>, password: string)
    ensures IssuesFor([rule] + rest, password) == IssueIf(rule, password) + IssuesFor(rest, password)
  {
    assert ([rule] + rest)[1..] == rest;
  }

  lemma PasswordRulesUnfold(password: string)
    ensures IssuesFor(PasswordRules, password) ==
      IssueIf(MinLength, password) + (IssueIf(MaxLength, password) + (IssueIf(NeedsLower, password)
      + (IssueIf(NeedsUpper, password) + IssueIf(NeedsDigit, password))))
  {
    var p := password;
    var r5: seq<PasswordRule> := [NeedsDigit];
    var r4 := [NeedsUpper] + r5;
    var r3 := [NeedsLower] + r4;
    var r2 := [MaxLength] + r3;
    var r1 := [MinLength] + r2;
    IssuesForCons(NeedsDigit, [], p);
    assert [NeedsDigit] + [] == r5;
    assert IssuesFor(r5, p) == IssueIf(NeedsDigit, p);
    IssuesForCons(NeedsUpper, r5, p);
    IssuesForCons(NeedsLower, r4, p);
    IssuesForCons(MaxLength, r3, p);
    IssuesForCons(MinLength, r2, p);
    assert r1 == PasswordRules;
  }

  lemma SeqAssoc5<T>(a: seq<T>, b: seq<T>, c: seq<T>, d: seq<T>, e: seq<T>)
    ensures a + b + c + d + e == a + (b + (c + (d + e)))
  {
  }

  /** The `issues` list of `validate_password_strength`. */
  function PasswordIssues(password: string): seq<string>
  {
    if password == "" then [EmptyPasswordIssue] else IssuesFor(PasswordRules, password)
  }

  datatype PasswordCheck = PasswordCheck(isValid: bool, issues: seq<string>)

  method ValidatePasswordStrength(password: string) returns (check: PasswordCheck)
    ensures check.isValid <==> check.issues == []
    ensures check.issues == PasswordIssues(password)
    ensures password == "" ==> !check.isValid && check.issues == [EmptyPasswordIssue]
    ensures |check.issues| <= 5
  {
    if password == "" {
      return PasswordCheck(false, [EmptyPasswordIssue]);
    }
    var issues: seq<string> := [];
    if |password| < 6 {
      issues := issues + [RuleIssue(MinLength)];
    }
    assert issues == IssueIf(MinLength, password);
    if |password| > 100 {
      issues := issues + [RuleIssue(MaxLength)];
    }
    assert issues == IssueIf(MinLength, password) + IssueIf(MaxLength, password);
    if !HasLower(password) {
      issues := issues + [RuleIssue(NeedsLower)];
    }
    assert issues == IssueIf(MinLength, password) + IssueIf(MaxLength, password) + IssueIf(NeedsLower, password);
    if !HasUpper(password) {
      issues := issues + [RuleIssue(NeedsUpper)];
    }
    assert issues == IssueIf(MinLength, password) + IssueIf(MaxLength, password) + IssueIf(NeedsLower, password)
      + IssueIf(NeedsUpper, password);
    if !HasDigit(password) {
      issues := issues + [RuleIssue(NeedsDigit)];
    }
    assert issues == IssueIf(MinLength, password) + IssueIf(MaxLength, password) + IssueIf(NeedsLower, password)
      + IssueIf(NeedsUpper, password) + IssueIf(NeedsDigit, password);
    PasswordRulesUnfold(password);
    SeqAssoc5(IssueIf(MinLength, password), IssueIf(MaxLength, password), IssueIf(NeedsLower, password),
      IssueIf(NeedsUpper, password), IssueIf(NeedsDigit, password));
    check := PasswordCheck(|issues| == 0, issues);
  }

  lemma {:induction false} IssuesForReports(rules: seq<PasswordRule>, password: string, rule: PasswordRule)
    ensures RuleIssue(rule) in IssuesFor(rules, password) <==> rule in rules && Violates(rule, password)
  {
    if |rules| > 0 {
      IssuesForReports(rules[1..], password, rule);
      var head := IssueIf(rules[0], password);
      assert IssuesFor(rules, password) == head + IssuesFor(rules[1..], password);
      RuleIssueDistinct(rules[0], rule);
      assert RuleIssue(rule) in head <==> rules[0] == rule && Violates(rule, password);
      assert rule in rules <==> rule == rules[0] || rule in rules[1..] by {
        assert rules == [rules[0]] + rules[1..];
      }
    }
  }

  /** Different rules report different messages. */
  lemma RuleIssueDistinct(a: PasswordRule, b: PasswordRule)
    ensures RuleIssue(a) == RuleIssue(b) ==> a == b
  {
    if a != b {
      assert |RuleIssue(a)| != |RuleIssue(b)| || RuleIssue(a)[27] != RuleIssue(b)[27];
    }
  }

  /** For a non-empty password, each rule's issue is reported exactly when the
      rule fails, and the password is valid exactly when no rule fails. */
  lemma PasswordIssueIffRuleFails(password: string, rule: PasswordRule)
    requires password != ""
    ensures RuleIssue(rule) in PasswordIssues(password) <==> Violates(rule, password)
    ensures PasswordIssues(password) == [] <==>
      6 <= |password| <= 100 && HasLower(password) && HasUpper(password) && HasDigit(password)
  {
    IssuesForReports(PasswordRules, password, rule);
    assert rule in PasswordRules by {
      match rule
      case MinLength => assert PasswordRules[0] == rule;
      case MaxLength => assert PasswordRules[1] == rule;
      case NeedsLower => assert PasswordRules[2] == rule;
      case NeedsUpper => assert PasswordRules[3] == rule;
      case NeedsDigit => assert PasswordRules[4] == rule;
    }
    if PasswordIssues(password) == [] {
      assert !Violates(PasswordRules[0], password);
      assert !Violates(PasswordRules[1], password);
      assert !Violates(PasswordRules[2], password);
      assert !Violates(PasswordRules[3], password);
      assert !Violates(PasswordRules[4], password);
    }
  }

  // ---------------------------------------------------------------------------
  // calculate_password_strength
  // ---------------------------------------------------------------------------

  /** How many of the length thresholds 6, 8 and 12 the length reaches. */
  function LengthTiers(n: nat): nat
  {
    (if n >= 6 then 1 else 0) + (if n >= 8 then 1 else 0) + (if n >= 12 then 1 else 0)
  }

  /** Points for the character classes present: 15 each for lowercase,
      uppercase and digits, 20 for anything else. */
  function ClassPoints(password: string): nat
  {
    (if HasLower(password) then 15 else 0) + (if HasUpper(password) then 15 else 0)
    + (if HasDigit(password) then 15 else 0) + (if HasSpecial(password) then 20 else 0)
  }

  function StrengthScore(password: string): int
  {
    if password == "" then 0 else Min(10 * LengthTiers(|password|) + ClassPoints(password), 100)
  }

  method CalculatePasswordStrength(password: string) returns (strength: int)
    ensures strength == StrengthScore(password)
    ensures 0 <= strength <= 100
  {
    if password == "" {
      return 0;
    }
    strength := 0;
    if |password| >= 6 {
      strength := strength + 10;
    }
    if |password| >= 8 {
      strength := strength + 10;
    }
    if |password| >= 12 {
      strength := strength + 10;
    }
    if HasLower(password) {
      strength := strength + 15;
    }
    if HasUpper(password) {
      strength := strength + 15;
    }
    if HasDigit(password) {
      strength := strength + 15;
    }
    if HasSpecial(password) {
      strength := strength + 20;
    }
    strength := Min(strength, 100);
  }

  /** The score is 0 exactly for the empty password, at least 15 otherwise
      (every character belongs to some class), a multiple of 5, and never
      above 95: the cap at 100 is never reached. */
  lemma StrengthRange(password: string)
    ensures 0 <= StrengthScore(password) <= 95
    ensures StrengthScore(password) % 5 == 0
    ensures StrengthScore(password) == 0 <==> password == ""
    ensures password != "" ==> StrengthScore(password) >= 15
  {
    if password != "" {
      var c := password[0];
      if IsAsciiLower(c) {
        assert HasLower(password);
      } else if IsAsciiUpper(c) {
        assert HasUpper(password);
      } else if IsDigit(c) {
        assert HasDigit(password);
      } else {
        assert HasSpecial(password);
      }
    }
  }

  /** Appending a character never lowers the score. */
  lemma StrengthGrowsWithAppend(password: string, c: char)
    ensures StrengthScore(password + [c]) >= StrengthScore(password)
  {
    var longer := password + [c];
    if password != "" {
      if HasLower(password) {
        var i :| 0 <= i < |password| && IsAsciiLower(password[i]);
        assert IsAsciiLower(longer[i]);
      }
      if HasUpper(password) {
        var i :| 0 <= i < |password| && IsAsciiUpper(password[i]);
        assert IsAsciiUpper(longer[i]);
      }
      if HasDigit(password) {
        var i :| 0 <= i < |password| && IsDigit(password[i]);
        assert IsDigit(longer[i]);
      }
      if HasSpecial(password) {
        var i :| 0 <= i < |password| && IsSpecial(password[i]);
        assert IsSpecial(longer[i]);
      }
    }
    StrengthRange(longer);
  }

  // ---------------------------------------------------------------------------
  // Token expiry (decode abstracted)
  // ---------------------------------------------------------------------------

  /** Seconds since the epoch that `datetime.utcfromtimestamp` turns into a
      date: 0001-01-01T00:00:00 up to 9999-12-31T23:59:59. */
  type Timestamp = x: int | -62135596800 <= x <= 253402300799

  /** The `exp` claim of a payload that decoded: absent, a timestamp in seconds
      since the epoch (section 4.1.4 of RFC 7519) that falls in a year
      1..9999, or a value that `datetime.utcfromtimestamp` rejects with
      `ValueError` or `TypeError` (a number outside that range, a string). */
  datatype ExpClaim = NoExp | ExpAt(seconds: Timestamp) | BadExp

  /** `get_token_expiration_time`: `decoded` is the result of decoding the token
      without checking its signature, `None` when it does not decode. */
  function TokenExpirationTime(decoded: Option<ExpClaim>): (expiry: Option<int>)
    ensures expiry.Some? <==> decoded.Some? && decoded.value.ExpAt?
    ensures expiry.Some? ==> expiry.value == decoded.value.seconds
  {
    match decoded
    case None => None
    case Some(claim) => if claim.ExpAt? then Some(claim.seconds) else None
  }

  /** `get_time_until_expiration`: seconds left at clock `now`. */
  function TimeUntilExpiration(decoded: Option<ExpClaim>, now: int): (left: Option<int>)
    ensures left.Some? <==> TokenExpirationTime(decoded).Some?
    ensures left.Some? ==> now + left.value == TokenExpirationTime(decoded).value
  {
    match TokenExpirationTime(decoded)
    case None => None
    case Some(expiry) => Some(expiry - now)
  }

  const ExpiryBufferSeconds: int := 60

  /** `is_token_expired`: a token is treated as expired when its expiry cannot
      be read or when it falls before now plus the 60-second buffer. */
  function IsTokenExpired(decoded: Option<ExpClaim>, now: int): (expired: bool)
    ensures !(decoded.Some? && decoded.value.ExpAt?) ==> expired
    ensures decoded.Some? && decoded.value.ExpAt? ==> (expired <==> now + 60 > decoded.value.seconds)
    ensures expired <==>
      TimeUntilExpiration(decoded, now).None? || TimeUntilExpiration(decoded, now).value < ExpiryBufferSeconds
  {
    match TokenExpirationTime(decoded)
    case None => true
    case Some(expiry) => now + ExpiryBufferSeconds > expiry
  }

  /** Once expired, a token stays expired as the clock advances. */
  lemma ExpiryIsPermanent(decoded: Option<ExpClaim>, now: int, later: int)
    requires now <= later && IsTokenExpired(decoded, now)
    ensures IsTokenExpired(decoded, later)
  {
  }

  // ---------------------------------------------------------------------------
  // Roles
  // ---------------------------------------------------------------------------

  /** The role order the docstring of `check_user_permission` speaks of. */
  function RoleRank(role: Role): nat
  {
    match role
    case RegularUser => 0
    case Admin => 1
  }

  function IsUserAdmin(user: User): (admin: bool)
    ensures admin <==> forall other: Role :: RoleRank(other) <= RoleRank(user.role)
  {
    assert RoleRank(Admin) == 1;
    user.role == Admin
  }

  /** An admin passes every check; anyone else only the check for their own role. */
  function CheckUserPermission(user: User, required: Role): (allowed: bool)
    ensures IsUserAdmin(user) ==> allowed
    ensures allowed <==> RoleRank(user.role) >= RoleRank(required)
  {
    if IsUserAdmin(user) then true else user.role == required
  }

  // ---------------------------------------------------------------------------
  // Error formatting
  // ---------------------------------------------------------------------------

  /** An `HTTPException` with its optional `WWW-Authenticate` header value. */
  datatype AuthException = AuthException(code: int, detail: string, wwwAuthenticate: Option<string>)

  function FormatAuthError(error: string, httpStatus: int := BadRequest): (e: AuthException)
    ensures e.code == httpStatus && e.detail == error
    ensures e.wwwAuthenticate.Some? <==> httpStatus == Unauthorized
    ensures e.wwwAuthenticate.Some? ==> e.wwwAuthenticate.value == "Bearer"
  {
    AuthException(httpStatus, error, if httpStatus == Unauthorized then Some("Bearer") else None)
  }

  function CredentialsException(): (e: AuthException)
    ensures e == FormatAuthError("Could not validate credentials", Unauthorized)
  {
    AuthException(Unauthorized, "Could not validate credentials", Some("Bearer"))
  }

  function ForbiddenException(detail: string := "Not enough permissions"): (e: AuthException)
    ensures e == FormatAuthError(detail, Forbidden)
  {
    AuthException(Forbidden, detail, None)
  }

  // ---------------------------------------------------------------------------
  // validate_user_registration_data
  // ---------------------------------------------------------------------------

  const EmailEmptyError: string := "Email không được để trống"
  const EmailInvalidError: string := "Email không hợp lệ"
  const FullNameTooShortError: string := "Họ tên phải có ít nhất 2 ký tự"
  const FullNameTooLongError: string := "Họ tên không được vượt quá 100 ký tự"

  function EmailErrors(email: string): seq<string>
  {
    if email == "" then [EmailEmptyError]
    else if !ValidateEmail(email) then [EmailInvalidError]
    else []
  }

  /** `if full_name:` skips both `None` and the empty name. */
  function FullNameErrors(fullName: Option<string>): seq<string>
  {
    if fullName.None? || fullName.value == "" then []
    else ShortNameErrors(fullName.value) + LongNameErrors(fullName.value)
  }

  function ShortNameErrors(name: string): seq<string>
  {
    if |name| < 2 then [FullNameTooShortError] else []
  }

  function LongNameErrors(name: string): seq<string>
  {
    if |name| > 100 then [FullNameTooLongError] else []
  }

  /** The e-mail error, then the password issues in their own order (they are
      added exactly when `is_valid` is false, that is when there are any), then
      the full-name errors. */
  function RegistrationErrors(email: string, password: string, fullName: Option<string>): seq<string>
  {
    EmailErrors(email) + PasswordIssues(password) + FullNameErrors(fullName)
  }

  method ValidateUserRegistrationData(email: string, password: string, fullName: Option<string> := None)
    returns (errors: seq<string>)
    ensures errors == RegistrationErrors(email, password, fullName)
  {
    errors := [];
    if email == "" {
      errors := errors + [EmailEmptyError];
    } else if !ValidateEmail(email) {
      errors := errors + [EmailInvalidError];
    }
    assert errors == EmailErrors(email);
    var passwordValidation := ValidatePasswordStrength(password);
    if !passwordValidation.isValid {
      errors := errors + passwordValidation.issues;
    }
    assert errors == EmailErrors(email) + PasswordIssues(password);
    errors := AppendFullNameErrors(errors, fullName);
  }

  /** The full-name block of the registration check, appending to `errors`. */
  method AppendFullNameErrors(errors: seq<string>, fullName: Option<string>) returns (result: seq<string>)
    ensures result == errors + FullNameErrors(fullName)
  {
    result := errors;
    if fullName.Some? && fullName.value != "" {
      var name := fullName.value;
      if |name| < 2 {
        result := result + [FullNameTooShortError];
      }
      if |name| > 100 {
        result := result + [FullNameTooLongError];
      }
      assert result == errors + (ShortNameErrors(name) + LongNameErrors(name));
    }
  }

  lemma RuleIssueIsNoEmailError(rule: PasswordRule)
    ensures RuleIssue(rule) != EmailInvalidError && RuleIssue(rule) != EmailEmptyError
  {
    assert RuleIssue(rule)[0] == 'M';
  }

  /** No password issue or full-name error reads like an e-mail error. */
  lemma EmailErrorsAreDistinct(password: string, fullName: Option<string>)
    ensures EmailInvalidError !in PasswordIssues(password) && EmailEmptyError !in PasswordIssues(password)
    ensures EmailInvalidError !in FullNameErrors(fullName) && EmailEmptyError !in FullNameErrors(fullName)
  {
    if password != "" {
      var issues := IssuesFor(PasswordRules, password);
      forall m | 0 <= m < |issues|
        ensures issues[m] != EmailInvalidError && issues[m] != EmailEmptyError
      {
        var k :| 0 <= k < |PasswordRules| && issues[m] == RuleIssue(PasswordRules[k]);
        RuleIssueIsNoEmailError(PasswordRules[k]);
      }
    } else {
      assert EmptyPasswordIssue[0] == 'M';
    }
    assert FullNameTooShortError[0] == 'H' && FullNameTooLongError[0] == 'H';
  }

  /** An empty e-mail is reported once, as empty, and never also as malformed;
      a non-empty malformed one is reported as malformed. */
  lemma EmptyEmailReportedOnlyAsEmpty(email: string, password: string, fullName: Option<string>)
    ensures email == "" ==>
      RegistrationErrors(email, password, fullName)[0] == EmailEmptyError
      && EmailInvalidError !in RegistrationErrors(email, password, fullName)
    ensures email != "" && !ValidateEmail(email) ==>
      RegistrationErrors(email, password, fullName)[0] == EmailInvalidError
      && EmailEmptyError !in RegistrationErrors(email, password, fullName)
  {
    EmailErrorsAreDistinct(password, fullName);
    var errors := RegistrationErrors(email, password, fullName);
    if email == "" {
      assert EmailInvalidError != EmailEmptyError;
      assert errors == [EmailEmptyError] + (PasswordIssues(password) + FullNameErrors(fullName));
    } else if !ValidateEmail(email) {
      assert errors == [EmailInvalidError] + (PasswordIssues(password) + FullNameErrors(fullName));
    }
  }

  /** The registration data passes exactly when every individual check passes. */
  lemma RegistrationValidIff(email: string, password: string, fullName: Option<string>)
    ensures RegistrationErrors(email, password, fullName) == [] <==>
      email != "" && ValidateEmail(email)
      && password != "" && 6 <= |password| <= 100
      && HasLower(password) && HasUpper(password) && HasDigit(password)
      && (fullName.None? || fullName.value == "" || 2 <= |fullName.value| <= 100)
  {
    if password != "" {
      PasswordIssueIffRuleFails(password, MinLength);
    }
  }

  // ---------------------------------------------------------------------------
  // sanitize_user_input
  // ---------------------------------------------------------------------------

  /** The end of the whitespace run that starts at `i`: the scan `str.strip()`
      makes from the left. */
  function SpaceRunEnd(s: string, i: nat): (n: nat)
    requires i <= |s|
    ensures i <= n <= |s|
    ensures forall k :: i <= k < n ==> IsSpace(s[k])
    ensures n < |s| ==> !IsSpace(s[n])
    decreases |s| - i
  {
    if i < |s| && IsSpace(s[i]) then SpaceRunEnd(s, i + 1) else i
  }

  /** The start of the whitespace run that ends at `j`, never before `lo`: the
      scan `str.strip()` makes from the right. */
  function SpaceRunStart(s: string, lo: nat, j: nat): (n: nat)
    requires lo <= j <= |s|
    ensures lo <= n <= j
    ensures forall k :: n <= k < j ==> IsSpace(s[k])
    ensures lo < n ==> !IsSpace(s[n - 1])
  {
    if lo < j && IsSpace(s[j - 1]) then SpaceRunStart(s, lo, j - 1) else j
  }

  /** `s.strip()`: the infix of `s` between its leading and its trailing
      whitespace, which neither begins nor ends with whitespace. */
  function Strip(s: string): (r: string)
    ensures SpaceRunEnd(s, 0) + |r| <= |s|
    ensures forall i :: 0 <= i < |r| ==> r[i] == s[SpaceRunEnd(s, 0) + i]
    ensures forall k :: 0 <= k < SpaceRunEnd(s, 0) ==> IsSpace(s[k])
    ensures forall k :: SpaceRunEnd(s, 0) + |r| <= k < |s| ==> IsSpace(s[k])
    ensures r != [] ==> !IsSpace(r[0]) && !IsSpace(r[|r| - 1])
  {
    var start := SpaceRunEnd(s, 0);
    s[start..SpaceRunStart(s, start, |s|)]
  }

  /** Python's `s[:n]`, where a negative `n` counts from the end. */
  function PrefixSlice(s: string, n: int): (r: string)
    ensures |r| <= |s| && r == s[..|r|]
    ensures 0 <= n ==> |r| == Min(n, |s|)
    ensures n < 0 ==> |r| == Max(0, |s| + n)
  {
    if n >= 0 then (if n <= |s| then s[..n] else s)
    else if |s| + n > 0 then s[..|s| + n] else []
  }

  /** `s.replace(c, rep)` for a one-character `c`: every occurrence replaced, left to right. */
  function ReplaceChar(s: string, c: char, rep: string): string
  {
    if |s| == 0 then []
    else (if s[0] == c then rep else [s[0]]) + ReplaceChar(s[1..], c, rep)
  }

  /** The replacement chain of `sanitize_user_input`, '&' first. */
  function EncodeChain(s: string): string
  {
    ReplaceChar(ReplaceChar(ReplaceChar(ReplaceChar(ReplaceChar(
      s, '&', "&amp;"), '<', "&lt;"), '>', "&gt;"), '"', "&quot;"), '\'', "&#x27;")
  }

  /** The entity each character is written as. */
  function Entity(c: char): string
  {
    if c == '&' then "&amp;"
    else if c == '<' then "&lt;"
    else if c == '>' then "&gt;"
    else if c == '"' then "&quot;"
    else if c == '\'' then "&#x27;"
    else [c]
  }

  /** Character-by-character entity encoding. */
  function Escape(s: string): string
  {
    if |s| == 0 then [] else Entity(s[0]) + Escape(s[1..])
  }

  /** Decoding of the five entities `Escape` produces; any other character stands for itself. */
  function Unescape(s: string): string
  {
    if |s| == 0 then []
    else if |s| >= 5 && s[..5] == "&amp;" then ['&'] + Unescape(s[5..])
    else if |s| >= 4 && s[..4] == "&lt;" then ['<'] + Unescape(s[4..])
    else if |s| >= 4 && s[..4] == "&gt;" then ['>'] + Unescape(s[4..])
    else if |s| >= 6 && s[..6] == "&quot;" then ['"'] + Unescape(s[6..])
    else if |s| >= 6 && s[..6] == "&#x27;" then ['\''] + Unescape(s[6..])
    else [s[0]] + Unescape(s[1..])
  }

  /** `t` begins with one of the five entities `Escape` writes. */
  predicate StartsWithEntity(t: string)
  {
    "&amp;" <= t || "&lt;" <= t || "&gt;" <= t || "&quot;" <= t || "&#x27;" <= t
  }

  /** The encoding leaves no bare ampersand: every '&' in its output is the
      first character of one of the five entities. */
  lemma EscapeLeavesNoBareAmpersand(s: string)
    ensures forall i :: 0 <= i < |Escape(s)| && Escape(s)[i] == '&' ==> StartsWithEntity(Escape(s)[i..])
  {
    forall i | 0 <= i < |Escape(s)| && Escape(s)[i] == '&'
      ensures StartsWithEntity(Escape(s)[i..])
    {
      EscapedAmpersandStartsEntity(s, i);
    }
  }

  lemma {:induction false} EscapedAmpersandStartsEntity(s: string, i: nat)
    requires i < |Escape(s)| && Escape(s)[i] == '&'
    ensures StartsWithEntity(Escape(s)[i..])
  {
    var e, rest := Entity(s[0]), Escape(s[1..]);
    assert Escape(s) == e + rest;
    if i < |e| {
      assert i == 0 && e <= Escape(s)[i..];
    } else {
      EscapedAmpersandStartsEntity(s[1..], i - |e|);
      assert Escape(s)[i..] == rest[i - |e|..];
    }
  }

  /** None of the characters an HTML context treats as markup. */
  predicate NoRawMarkup(s: string)
  {
    forall i :: 0 <= i < |s| ==> s[i] != '<' && s[i] != '>' && s[i] != '"' && s[i] != '\''
  }

  lemma {:induction false} ReplaceCharAppend(a: string, b: string, c: char, rep: string)
    ensures ReplaceChar(a + b, c, rep) == ReplaceChar(a, c, rep) + ReplaceChar(b, c, rep)
  {
    if |a| > 0 {
      assert (a + b)[1..] == a[1..] + b;
      ReplaceCharAppend(a[1..], b, c, rep);
    } else {
      assert a + b == b;
    }
  }

  /** Because '&' is encoded first, and no later replacement introduces a
      character an earlier one would have touched, the chain is exactly the
      character-by-character encoding. */
  lemma {:induction false} EncodeChainIsEscape(s: string)
    ensures EncodeChain(s) == Escape(s)
  {
    if |s| > 0 {
      var head, tail := [s[0]], s[1..];
      assert s == head + tail;
      var s1 := ReplaceChar(s, '&', "&amp;");
      ReplaceCharAppend(head, tail, '&', "&amp;");
      var h1, t1 := ReplaceChar(head, '&', "&amp;"), ReplaceChar(tail, '&', "&amp;");
      var s2 := ReplaceChar(s1, '<', "&lt;");
      ReplaceCharAppend(h1, t1, '<', "&lt;");
      var h2, t2 := ReplaceChar(h1, '<', "&lt;"), ReplaceChar(t1, '<', "&lt;");
      var s3 := ReplaceChar(s2, '>', "&gt;");
      ReplaceCharAppend(h2, t2, '>', "&gt;");
      var h3, t3 := ReplaceChar(h2, '>', "&gt;"), ReplaceChar(t2, '>', "&gt;");
      var s4 := ReplaceChar(s3, '"', "&quot;");
      ReplaceCharAppend(h3, t3, '"', "&quot;");
      var h4, t4 := ReplaceChar(h3, '"', "&quot;"), ReplaceChar(t3, '"', "&quot;");
      ReplaceCharAppend(h4, t4, '\'', "&#x27;");
      var h5 := ReplaceChar(h4, '\'', "&#x27;");
      assert h5 == Entity(s[0]) by {
        EntityChain(s[0]);
      }
      EncodeChainIsEscape(tail);
    }
  }

  lemma {:induction false} ReplaceAbsent(s: string, c: char, rep: string)
    requires c !in s
    ensures ReplaceChar(s, c, rep) == s
  {
    if |s| > 0 {
      assert s[0] != c;
      ReplaceAbsent(s[1..], c, rep);
    }
  }

  lemma ReplaceSingle(x: char, c: char, rep: string)
    ensures ReplaceChar([x], c, rep) == if x == c then rep else [x]
  {
    assert [x][1..] == [];
  }

  /** Replacing, in turn, characters that do not occur leaves a string unchanged. */
  lemma LaterStepsKeep(e: string, first: nat)
    requires first <= 4
    requires first <= 1 ==> '<' !in e
    requires first <= 2 ==> '>' !in e
    requires first <= 3 ==> '"' !in e
    requires '\'' !in e
    ensures first == 1 ==> ReplaceChar(ReplaceChar(ReplaceChar(ReplaceChar(e, '<', "&lt;"), '>', "&gt;"), '"', "&quot;"), '\'', "&#x27;") == e
    ensures first == 2 ==> ReplaceChar(ReplaceChar(ReplaceChar(e, '>', "&gt;"), '"', "&quot;"), '\'', "&#x27;") == e
    ensures first == 3 ==> ReplaceChar(ReplaceChar(e, '"', "&quot;"), '\'', "&#x27;") == e
    ensures first == 4 ==> ReplaceChar(e, '\'', "&#x27;") == e
  {
    if first <= 1 { ReplaceAbsent(e, '<', "&lt;"); }
    if first <= 2 { ReplaceAbsent(e, '>', "&gt;"); }
    if first <= 3 { ReplaceAbsent(e, '"', "&quot;"); }
    ReplaceAbsent(e, '\'', "&#x27;");
  }

  lemma EntityChain(c: char)
    ensures EncodeChain([c]) == Entity(c)
  {
    ReplaceSingle(c, '&', "&amp;");
    if c == '&' {
      LaterStepsKeep("&amp;", 1);
      return;
    }
    ReplaceSingle(c, '<', "&lt;");
    if c == '<' {
      LaterStepsKeep("&lt;", 2);
      return;
    }
    ReplaceSingle(c, '>', "&gt;");
    if c == '>' {
      LaterStepsKeep("&gt;", 3);
      return;
    }
    ReplaceSingle(c, '"', "&quot;");
    if c == '"' {
      LaterStepsKeep("&quot;", 4);
      return;
    }
    ReplaceSingle(c, '\'', "&#x27;");
  }

  lemma UnescapeAmp(rest: string)
    ensures Unescape("&amp;" + rest) == ['&'] + Unescape(rest)
  {
    var e := "&amp;" + rest;
    assert e[..5] == "&amp;" && e[5..] == rest;
  }

  lemma UnescapeLt(rest: string)
    ensures Unescape("&lt;" + rest) == ['<'] + Unescape(rest)
  {
    var e := "&lt;" + rest;
    assert e[..4] == "&lt;" && e[4..] == rest;
    assert e[1] == 'l';
  }

  lemma UnescapeGt(rest: string)
    ensures Unescape("&gt;" + rest) == ['>'] + Unescape(rest)
  {
    var e := "&gt;" + rest;
    assert e[..4] == "&gt;" && e[4..] == rest;
    assert e[1] == 'g';
  }

  lemma UnescapeQuot(rest: string)
    ensures Unescape("&quot;" + rest) == ['"'] + Unescape(rest)
  {
    var e := "&quot;" + rest;
    assert e[..6] == "&quot;" && e[6..] == rest;
    assert e[1] == 'q';
  }

  lemma UnescapeApos(rest: string)
    ensures Unescape("&#x27;" + rest) == ['\''] + Unescape(rest)
  {
    var e := "&#x27;" + rest;
    assert e[..6] == "&#x27;" && e[6..] == rest;
    assert e[1] == '#';
  }

  lemma UnescapePlain(c: char, rest: string)
    requires c != '&'
    ensures Unescape([c] + rest) == [c] + Unescape(rest)
  {
    var e := [c] + rest;
    assert e[0] == c && e[1..] == rest;
  }

  /** Decoding undoes the encoding. */
  lemma {:induction false} UnescapeEscape(s: string)
    ensures Unescape(Escape(s)) == s
  {
    if |s| > 0 {
      var c, rest := s[0], Escape(s[1..]);
      UnescapeEscape(s[1..]);
      if c == '&' {
        UnescapeAmp(rest);
      } else if c == '<' {
        UnescapeLt(rest);
      } else if c == '>' {
        UnescapeGt(rest);
      } else if c == '"' {
        UnescapeQuot(rest);
      } else if c == '\'' {
        UnescapeApos(rest);
      } else {
        UnescapePlain(c, rest);
      }
      assert s == [c] + s[1..];
    }
  }

  lemma {:induction false} EscapeHasNoMarkup(s: string)
    ensures NoRawMarkup(Escape(s))
  {
    if |s| > 0 {
      EscapeHasNoMarkup(s[1..]);
      var e := Entity(s[0]);
      assert NoRawMarkup(e);
      assert Escape(s) == e + Escape(s[1..]);
    }
  }

  /** The text `sanitize_user_input` encodes: stripped, then cut to `maxLength`. */
  function SanitizedPlainText(text: string, maxLength: int): string
  {
    if text == "" then "" else PrefixSlice(Strip(text), maxLength)
  }

  method SanitizeUserInput(text: string, maxLength: int := 255) returns (result: string)
    ensures text == "" ==> result == ""
    ensures result == Escape(SanitizedPlainText(text, maxLength))
    ensures Unescape(result) == SanitizedPlainText(text, maxLength)
    ensures NoRawMarkup(result)
  {
    if text == "" {
      return "";
    }
    var t := Strip(text);
    t := PrefixSlice(t, maxLength);
    ghost var plain := t;
    t := ReplaceChar(t, '&', "&amp;");
    t := ReplaceChar(t, '<', "&lt;");
    t := ReplaceChar(t, '>', "&gt;");
    t := ReplaceChar(t, '"', "&quot;");
    t := ReplaceChar(t, '\'', "&#x27;");
    EncodeChainIsEscape(plain);
    UnescapeEscape(plain);
    EscapeHasNoMarkup(plain);
    result := t;
  }

  // ---------------------------------------------------------------------------
  // paginate_query
  // ---------------------------------------------------------------------------

  /** The effective offset and limit, and the rows `query.offset(skip).limit(limit)` returns. */
  method PaginateQuery<T>(query: seq<T>, skip: int := 0, limit: int := 10)
    returns (page: seq<T>, effectiveSkip: nat, effectiveLimit: nat)
    ensures effectiveSkip == Max(skip, 0)
    ensures 1 <= effectiveLimit <= 100
    ensures 1 <= limit <= 100 ==> effectiveLimit == limit
    ensures limit < 1 ==> effectiveLimit == 10
    ensures limit > 100 ==> effectiveLimit == 100
    ensures |page| <= effectiveLimit
    ensures forall i :: 0 <= i < |page| ==> effectiveSkip + i < |query| && page[i] == query[effectiveSkip + i]
    ensures |page| == Min(effectiveLimit, Max(0, |query| - effectiveSkip))
  {
    var s, l := skip, limit;
    if s < 0 {
      s := 0;
    }
    if l < 1 {
      l := 10;
    }
    if l > 100 {
      l := 100;
    }
    effectiveSkip, effectiveLimit := s, l;
    page := Page(query, s, l);
  }
}

=== FILE: Common.dfy ===
/** Shared building blocks: optional values, the HTTP errors the routers raise,
    and the offset/limit slicing every paginated query applies. */
module Common {

  datatype Option<+T> = None | Some(value: T)

  /** An `HTTPException`: its status code and its `detail` message. */
  datatype HttpError = HttpError(code: int, detail: string)

  /** The outcome of a handler: a value, or the HTTP error it raises. */
  datatype Result<+T> = Ok(value: T) | Err(error: HttpError)

  const BadRequest: int := 400
  const Unauthorized: int := 401
  const Forbidden: int := 403
  const NotFound: int := 404

  function Min(a: int, b: int): int { if a <= b then a else b }
  function Max(a: int, b: int): int { if a >= b then a else b }

  /** Python truthiness of an optional integer query parameter: `None` and `0` are both false. */
  predicate IntFilterActive(o: Option<int>) { o.Some? && o.value != 0 }

  /** Python truthiness of an optional string query parameter: `None` and `""` are both false. */
  predicate StringFilterActive(o: Option<string>) { o.Some? && o.value != "" }

  /** `query.offset(skip).limit(limit)`: drop the first `skip` rows, keep at most `limit` of the rest. */
  function Page<T>(xs: seq<T>, skip: nat, limit: nat): (r: seq<T>)
    ensures |r| == Min(limit, Max(0, |xs| - skip))
    ensures forall i :: 0 <= i < |r| ==> skip + i < |xs| && r[i] == xs[skip + i]
  {
    if skip >= |xs| then []
    else if |xs| - skip <= limit then xs[skip..]
    else xs[skip..skip + limit]
  }

  /** The decimal digits of `n`, most significant first, as `str(n)` writes a natural number. */
  function NatDigits(n: nat): (r: string)
    ensures |r| >= 1
    ensures forall i :: 0 <= i < |r| ==> '0' <= r[i] <= '9'
  {
    var last := ['0' + (n % 10) as char];
    if n < 10 then last else NatDigits(n / 10) + last
  }

  /** `str(n)` for an integer, as an f-string interpolates it. */
  function IntToString(n: int): string
  {
    if n < 0 then "-" + NatDigits(-n) else NatDigits(n)
  }

  /** Index of the first element satisfying `p`, as `.filter(...).first()` finds it. */
  function FindFirst<T>(xs: seq<T>, p: T -> bool): (r: Option<nat>)
    ensures r.Some? ==> r.value < |xs| && p(xs[r.value])
    ensures r.Some? ==> forall j :: 0 <= j < r.value ==> !p(xs[j])
    ensures r.None? <==> forall j :: 0 <= j < |xs| ==> !p(xs[j])
  {
    if |xs| == 0 then None
    else if p(xs[0]) then Some(0)
    else
      match FindFirst(xs[1..], p)
      case None => None
      case Some(k) => Some(k + 1)
  }

  /** Number of elements of `xs` satisfying `p`, as `len([x for x in xs if p(x)])` or `.count()`. */
  function CountWhere<T>(xs: seq<T>, p: T -> bool): (n: nat)
    ensures n <= |xs|
    ensures n == 0 <==> forall j :: 0 <= j < |xs| ==> !p(xs[j])
  {
    if |xs| == 0 then 0
    else (if p(xs[0]) then 1 else 0) + CountWhere(xs[1..], p)
  }

  /** `[x for x in xs if p(x)]`, keeping the order of `xs`. */
  function Filter<T>(xs: seq<T>, p: T -> bool): (r: seq<T>)
    ensures |r| == CountWhere(xs, p)
    ensures forall i :: 0 <= i < |r| ==> r[i] in xs && p(r[i])
    ensures forall j :: 0 <= j < |xs| && p(xs[j]) ==> xs[j] in r
  {
    if |xs| == 0 then []
    else if p(xs[0]) then [xs[0]] + Filter(xs[1..], p)
    else Filter(xs[1..], p)
  }

  /** A row the filter keeps is a row of the input that satisfies the predicate. */
  lemma FilterMember<T>(xs: seq<T>, p: T -> bool, x: T)
    requires x in Filter(xs, p)
    ensures x in xs && p(x)
  {
    var i :| 0 <= i < |Filter(xs, p)| && Filter(xs, p)[i] == x;
  }

  /** Filtering keeps order: the rows kept from a prefix come before those
      kept from the rest. */
  lemma {:induction false} FilterAppend<T>(a: seq<T>, b: seq<T>, p: T -> bool)
    ensures Filter(a + b, p) == Filter(a, p) + Filter(b, p)
  {
    if |a| == 0 {
      assert a + b == b;
    } else {
      assert (a + b)[0] == a[0] && (a + b)[1..] == a[1..] + b;
      FilterAppend(a[1..], b, p);
    }
  }

  /** Filtering keeps multiplicity: a value the predicate accepts occurs as
      often as in the input, any other value not at all. */
  lemma {:induction false} FilterCounts<T>(xs: seq<T>, p: T -> bool, x: T)
    ensures multiset(Filter(xs, p))[x] == if p(x) then multiset(xs)[x] else 0
  {
    if |xs| > 0 {
      FilterCounts(xs[1..], p, x);
      assert xs == [xs[0]] + xs[1..];
      assert multiset(xs) == multiset([xs[0]]) + multiset(xs[1..]);
      if p(xs[0]) {
        assert multiset(Filter(xs, p)) == multiset([xs[0]]) + multiset(Filter(xs[1..], p));
      }
    }
  }

  /** Filtering a sequence without repeated elements repeats none either. */
  lemma {:induction false} FilterKeepsDistinct<T>(xs: seq<T>, p: T -> bool)
    requires forall i, j :: 0 <= i < j < |xs| ==> xs[i] != xs[j]
    ensures forall i, j :: 0 <= i < j < |Filter(xs, p)| ==> Filter(xs, p)[i] != Filter(xs, p)[j]
  {
    if |xs| > 0 {
      FilterKeepsDistinct(xs[1..], p);
      var rest := Filter(xs[1..], p);
      forall i | 0 <= i < |rest|
        ensures rest[i] != xs[0]
      {
        var k :| 0 <= k < |xs[1..]| && xs[1..][k] == rest[i];
        assert xs[k + 1] == rest[i];
      }
    }
  }
}

=== FILE: Forecasts.dfy ===
/** The forecast listings: every forecast the caller may see, filtered,
    newest first and paginated; and the latest forecast of each task. Both
    are read-only. The joins of the queries are modelled as lookups by id,
    so a forecast appears at most once however many rows share its ids. */
module Forecasts {
  import opened Common
  import opened Models
  import opened TaskRouter

  const InvalidRiskFilterDetail: string := "Mức độ rủi ro không hợp lệ. Chọn: low, medium, high, hoặc critical"

  // ---------------------------------------------------------------------------
  // Visibility
  // ---------------------------------------------------------------------------

  /** The join with the task table keeps a forecast only when its task
      exists; a regular user additionally needs to own the task's project,
      while an admin does not need the project at all. */
  predicate Visible(projects: seq<Project>, tasks: seq<Task>, user: User, f: ForecastLog)
  {
    match TaskIndex(tasks, f.taskId)
    case None => false
    case Some(k) => MayAccess(user, ProjectById(projects, tasks[k].projectId))
  }

  /** An admin sees the forecast of every existing task; a regular user
      exactly those on tasks of projects they own. */
  lemma VisibleMeaning(projects: seq<Project>, tasks: seq<Task>, user: User, f: ForecastLog)
    requires UniqueTaskIds(tasks)
    ensures user.role == Admin ==>
      (Visible(projects, tasks, user, f) <==> exists k :: 0 <= k < |tasks| && tasks[k].id == f.taskId)
    ensures user.role != Admin ==>
      (Visible(projects, tasks, user, f) <==>
        exists k :: 0 <= k < |tasks| && tasks[k].id == f.taskId && TaskOwnedBy(projects, tasks[k], user))
  {
    if user.role != Admin && exists k :: 0 <= k < |tasks| && tasks[k].id == f.taskId && TaskOwnedBy(projects, tasks[k], user) {
      var k :| 0 <= k < |tasks| && tasks[k].id == f.taskId && TaskOwnedBy(projects, tasks[k], user);
      assert TaskIndex(tasks, f.taskId).value == k;
    }
  }

  /** The task's project exists and belongs to `user`. */
  predicate TaskOwnedBy(projects: seq<Project>, t: Task, user: User)
  {
    ProjectById(projects, t.projectId).Some? && ProjectById(projects, t.projectId).value.ownerId == user.id
  }

  // ---------------------------------------------------------------------------
  // Newest first
  // ---------------------------------------------------------------------------

  /** Ordered by `created_at`, descending. */
  predicate NewestFirst(xs: seq<ForecastLog>)
  {
    forall i, j :: 0 <= i < j < |xs| ==> xs[i].createdAt >= xs[j].createdAt
  }

  /** Places `f` before the first row that is not newer than it. */
  function InsertNewestFirst(f: ForecastLog, xs: seq<ForecastLog>): seq<ForecastLog>
  {
    if |xs| == 0 then [f]
    else if f.createdAt >= xs[0].createdAt then [f] + xs
    else [xs[0]] + InsertNewestFirst(f, xs[1..])
  }

  /** Insertion adds exactly the one row. */
  lemma {:induction false} InsertAddsOne(f: ForecastLog, xs: seq<ForecastLog>)
    ensures multiset(InsertNewestFirst(f, xs)) == multiset(xs) + multiset{f}
    ensures |InsertNewestFirst(f, xs)| == |xs| + 1
  {
    if |xs| > 0 && f.createdAt < xs[0].createdAt {
      InsertAddsOne(f, xs[1..]);
      assert xs == [xs[0]] + xs[1..];
    }
  }

  /** Insertion keeps a newest-first sequence newest first. */
  lemma {:induction false} InsertKeepsOrder(f: ForecastLog, xs: seq<ForecastLog>)
    requires NewestFirst(xs)
    ensures NewestFirst(InsertNewestFirst(f, xs))
  {
    if |xs| > 0 && f.createdAt < xs[0].createdAt {
      var tail := xs[1..];
      assert NewestFirst(tail) by {
        forall i, j | 0 <= i < j < |tail|
          ensures tail[i].createdAt >= tail[j].createdAt
        {
          assert tail[i] == xs[i + 1] && tail[j] == xs[j + 1];
        }
      }
      InsertKeepsOrder(f, tail);
      InsertAddsOne(f, tail);
      var rest := InsertNewestFirst(f, tail);
      forall i | 0 <= i < |rest|
        ensures rest[i].createdAt <= xs[0].createdAt
      {
        assert rest[i] in multiset(rest);
        if rest[i] != f {
          assert rest[i] in multiset(tail);
          var k :| 0 <= k < |tail| && tail[k] == rest[i];
          assert xs[k + 1] == rest[i];
        }
      }
      assert InsertNewestFirst(f, xs) == [xs[0]] + rest;
    }
  }

  /** `order_by(created_at.desc())`. Rows with the same timestamp keep their
      table order. */
  function SortNewestFirst(xs: seq<ForecastLog>): seq<ForecastLog>
  {
    if |xs| == 0 then [] else InsertNewestFirst(xs[0], SortNewestFirst(xs[1..]))
  }

  /** Sorting yields a newest-first permutation of its input. */
  lemma {:induction false} SortIsNewestFirstPermutation(xs: seq<ForecastLog>)
    ensures NewestFirst(SortNewestFirst(xs))
    ensures multiset(SortNewestFirst(xs)) == multiset(xs)
    ensures |SortNewestFirst(xs)| == |xs|
  {
    if |xs| > 0 {
      var sorted := SortNewestFirst(xs[1..]);
      SortIsNewestFirstPermutation(xs[1..]);
      InsertKeepsOrder(xs[0], sorted);
      InsertAddsOne(xs[0], sorted);
      assert xs == [xs[0]] + xs[1..];
    }
  }

  /** A row is in the sorted sequence exactly when it is in the input. */
  lemma SortKeepsRows(xs: seq<ForecastLog>, f: ForecastLog)
    ensures f in SortNewestFirst(xs) <==> f in xs
  {
    SortIsNewestFirstPermutation(xs);
    assert f in SortNewestFirst(xs) <==> f in multiset(SortNewestFirst(xs));
    assert f in xs <==> f in multiset(xs);
  }

  // ---------------------------------------------------------------------------
  // GET /api/forecasts
  // ---------------------------------------------------------------------------

  /** The response row: the forecast and the name of its task, if any. */
  datatype ForecastView = ForecastView(forecast: ForecastLog, taskName: Option<string>)

  datatype ForecastList = ForecastList(forecasts: seq<ForecastView>, total: nat)

  /** `task.name if task else None`, for the first task with the forecast's id. */
  function TaskNameOf(tasks: seq<Task>, f: ForecastLog): (name: Option<string>)
    ensures name.Some? <==> exists k :: 0 <= k < |tasks| && tasks[k].id == f.taskId
    ensures name.Some? ==> exists k :: 0 <= k < |tasks| && tasks[k].id == f.taskId && tasks[k].name == name.value
  {
    match TaskIndex(tasks, f.taskId)
    case None => None
    case Some(k) => Some(tasks[k].name)
  }

  /** The response loop: one view per forecast, in order. */
  function Enrich(tasks: seq<Task>, forecasts: seq<ForecastLog>): (views: seq<ForecastView>)
    ensures |views| == |forecasts|
    ensures forall i :: 0 <= i < |views| ==>
      views[i].forecast == forecasts[i] && views[i].taskName == TaskNameOf(tasks, forecasts[i])
  {
    if |forecasts| == 0 then [] else [ForecastView(forecasts[0], TaskNameOf(tasks, forecasts[0]))] + Enrich(tasks, forecasts[1..])
  }

  /** The forecasts that pass visibility and the `task_id` and `risk_level`
      filters (a zero or empty filter is not applied). */
  predicate Selected(projects: seq<Project>, tasks: seq<Task>, user: User, taskId: Option<int>,
                     risk: Option<RiskLevel>, f: ForecastLog)
  {
    Visible(projects, tasks, user, f)
    && (IntFilterActive(taskId) ==> f.taskId == taskId.value)
    && (risk.Some? ==> f.riskLevel == risk.value)
  }

  function SelectedBy(projects: seq<Project>, tasks: seq<Task>, user: User, taskId: Option<int>,
                      risk: Option<RiskLevel>): ForecastLog -> bool
  {
    (f: ForecastLog) => Selected(projects, tasks, user, taskId, risk, f)
  }

  /** The risk filter: absent or empty means no filter, an unknown level is a
      400. */
  function ParseRiskFilter(riskLevel: Option<string>): (r: Result<Option<RiskLevel>>)
    ensures r.Err? <==> StringFilterActive(riskLevel) && ParseRisk(riskLevel.value).None?
    ensures r.Err? ==> r.error == HttpError(BadRequest, InvalidRiskFilterDetail)
    ensures r.Ok? ==> (r.value.Some? <==> StringFilterActive(riskLevel))
    ensures r.Ok? && r.value.Some? ==> RiskName(r.value.value) == riskLevel.value
  {
    if !StringFilterActive(riskLevel) then Ok(None)
    else match ParseRisk(riskLevel.value)
      case None => Err(HttpError(BadRequest, InvalidRiskFilterDetail))
      case Some(l) => Ok(Some(l))
  }

  /** A listed row: a visible forecast of the table that matches every
      active filter of the query string. */
  predicate RowMatches(projects: seq<Project>, tasks: seq<Task>, forecasts: seq<ForecastLog>, user: User,
                       taskId: Option<int>, riskLevel: Option<string>, f: ForecastLog)
  {
    f in forecasts && Visible(projects, tasks, user, f)
    && (IntFilterActive(taskId) ==> f.taskId == taskId.value)
    && (StringFilterActive(riskLevel) ==> RiskName(f.riskLevel) == riskLevel.value)
  }

  /** The filter keeps exactly the rows that match the query string. */
  lemma MatchingRow(projects: seq<Project>, tasks: seq<Task>, forecasts: seq<ForecastLog>, user: User,
                    taskId: Option<int>, riskLevel: Option<string>, f: ForecastLog)
    requires ParseRiskFilter(riskLevel).Ok?
    ensures f in Filter(forecasts, SelectedBy(projects, tasks, user, taskId, ParseRiskFilter(riskLevel).value)) <==> RowMatches(projects, tasks, forecasts, user, taskId, riskLevel, f)
  {
    var risk := ParseRiskFilter(riskLevel).value;
    var p := SelectedBy(projects, tasks, user, taskId, risk);
    if f in Filter(forecasts, p) {
      FilterMember(forecasts, p, f);
    }
    if RowMatches(projects, tasks, forecasts, user, taskId, riskLevel, f) {
      if risk.Some? {
        assert ParseRisk(riskLevel.value) == Some(f.riskLevel);
      }
      assert p(f);
      var k :| 0 <= k < |forecasts| && forecasts[k] == f;
    }
  }

  /** `GET /api/forecasts`: visibility, the optional filters, newest first;
      `total` counts every matching row before `skip` and `limit` cut the
      page. */
  function GetForecasts(projects: seq<Project>, tasks: seq<Task>, forecasts: seq<ForecastLog>, user: User,
                        taskId: Option<int>, riskLevel: Option<string>, skip: int, limit: int)
    : (r: Result<ForecastList>)
    requires skip >= 0 && 1 <= limit <= 1000
    ensures r.Err? <==> StringFilterActive(riskLevel) && ParseRisk(riskLevel.value).None?
    ensures r.Err? ==> r.error == HttpError(BadRequest, InvalidRiskFilterDetail)
    ensures r.Ok? ==> |r.value.forecasts| <= limit && |r.value.forecasts| <= r.value.total <= |forecasts|
    ensures r.Ok? ==> r.value.total == CountWhere(forecasts, SelectedBy(projects, tasks, user, taskId, ParseRiskFilter(riskLevel).value))
    ensures r.Ok? ==> |r.value.forecasts| == Min(limit, Max(0, r.value.total - skip))
    ensures r.Ok? ==> forall i :: 0 <= i < |r.value.forecasts| ==>
      RowMatches(projects, tasks, forecasts, user, taskId, riskLevel, r.value.forecasts[i].forecast)
      && r.value.forecasts[i].taskName == TaskNameOf(tasks, r.value.forecasts[i].forecast)
    ensures r.Ok? ==> forall i, j :: 0 <= i < j < |r.value.forecasts| ==>
      r.value.forecasts[i].forecast.createdAt >= r.value.forecasts[j].forecast.createdAt
    ensures r.Ok? ==> exists ordered ::
      NewestFirst(ordered)
      && multiset(ordered) == multiset(Filter(forecasts, SelectedBy(projects, tasks, user, taskId, ParseRiskFilter(riskLevel).value)))
      && r.value.forecasts == Enrich(tasks, Page(ordered, skip, limit))
  {
    match ParseRiskFilter(riskLevel)
    case Err(e) => Err(e)
    case Ok(risk) =>
      var selected := SelectedBy(projects, tasks, user, taskId, risk);
      var matching := Filter(forecasts, selected);
      var page := NewestPage(matching, skip, limit);
      PageRowsMatch(projects, tasks, forecasts, user, taskId, riskLevel, skip, limit);
      Ok(ForecastList(Enrich(tasks, page), |matching|))
  }

  /** Every row of the page matches the query string. */
  lemma PageRowsMatch(projects: seq<Project>, tasks: seq<Task>, forecasts: seq<ForecastLog>, user: User,
                      taskId: Option<int>, riskLevel: Option<string>, skip: nat, limit: nat)
    requires ParseRiskFilter(riskLevel).Ok?
    ensures forall i :: 0 <= i < |NewestPage(Filter(forecasts, SelectedBy(projects, tasks, user, taskId, ParseRiskFilter(riskLevel).value)), skip, limit)| ==>
      RowMatches(projects, tasks, forecasts, user, taskId, riskLevel, NewestPage(Filter(forecasts, SelectedBy(projects, tasks, user, taskId, ParseRiskFilter(riskLevel).value)), skip, limit)[i])
  {
    var page := NewestPage(Filter(forecasts, SelectedBy(projects, tasks, user, taskId, ParseRiskFilter(riskLevel).value)), skip, limit);
    forall i | 0 <= i < |page|
      ensures RowMatches(projects, tasks, forecasts, user, taskId, riskLevel, page[i])
    {
      MatchingRow(projects, tasks, forecasts, user, taskId, riskLevel, page[i]);
    }
  }

  /** The page of `matching` that `skip` and `limit` cut, newest first. */
  function NewestPage(matching: seq<ForecastLog>, skip: nat, limit: nat): (page: seq<ForecastLog>)
    ensures |page| == Min(limit, Max(0, |matching| - skip))
    ensures forall i :: 0 <= i < |page| ==> page[i] in matching
    ensures forall i, j :: 0 <= i < j < |page| ==> page[i].createdAt >= page[j].createdAt
    ensures exists ordered ::
      NewestFirst(ordered) && multiset(ordered) == multiset(matching) && page == Page(ordered, skip, limit)
  {
    var ordered := SortNewestFirst(matching);
    SortIsNewestFirstPermutation(matching);
    var page := Page(ordered, skip, limit);
    assert forall i :: 0 <= i < |page| ==> page[i] in matching by {
      forall i | 0 <= i < |page|
        ensures page[i] in matching
      {
        assert page[i] == ordered[skip + i];
        SortKeepsRows(matching, page[i]);
      }
    }
    page
  }

  /** Every visible forecast that matches the filters is counted in `total`,
      and appears on the page that covers its position: with no cut at all
      (`skip` 0 and a `limit` covering every row) it is listed. */
  lemma ListingIsComplete(projects: seq<Project>, tasks: seq<Task>, forecasts: seq<ForecastLog>, user: User,
                          taskId: Option<int>, riskLevel: Option<string>, f: ForecastLog)
    requires |forecasts| <= 1000
    requires ParseRiskFilter(riskLevel).Ok?
    requires RowMatches(projects, tasks, forecasts, user, taskId, riskLevel, f)
    ensures GetForecasts(projects, tasks, forecasts, user, taskId, riskLevel, 0, 1000).Ok?
    ensures GetForecasts(projects, tasks, forecasts, user, taskId, riskLevel, 0, 1000).value.total >= 1
    ensures exists i ::
      0 <= i < |GetForecasts(projects, tasks, forecasts, user, taskId, riskLevel, 0, 1000).value.forecasts|
      && GetForecasts(projects, tasks, forecasts, user, taskId, riskLevel, 0, 1000).value.forecasts[i].forecast == f
  {
    var risk := ParseRiskFilter(riskLevel).value;
    var matching := Filter(forecasts, SelectedBy(projects, tasks, user, taskId, risk));
    MatchingRow(projects, tasks, forecasts, user, taskId, riskLevel, f);
    WholePageHasRow(matching, f);
    var page := NewestPage(matching, 0, 1000);
    var i :| 0 <= i < |page| && page[i] == f;
    assert GetForecasts(projects, tasks, forecasts, user, taskId, riskLevel, 0, 1000) == Ok(ForecastList(Enrich(tasks, page), |matching|));
    assert Enrich(tasks, page)[i].forecast == f;
  }

  /** A page that starts at the first row and is as long as the input holds
      every row. */
  lemma WholePageHasRow(matching: seq<ForecastLog>, f: ForecastLog)
    requires |matching| <= 1000 && f in matching
    ensures f in NewestPage(matching, 0, 1000)
  {
    var ordered := SortNewestFirst(matching);
    SortIsNewestFirstPermutation(matching);
    SortKeepsRows(matching, f);
    var i :| 0 <= i < |ordered| && ordered[i] == f;
    assert NewestPage(matching, 0, 1000)[i] == f;
  }

  // ---------------------------------------------------------------------------
  // GET /api/forecasts/latest
  // ---------------------------------------------------------------------------

  /** `f` has the largest id among all forecasts of its task, as the
      `max(id) GROUP BY task_id` subquery computes it over the whole table. */
  predicate IsLatest(forecasts: seq<ForecastLog>, f: ForecastLog)
  {
    forall j :: 0 <= j < |forecasts| && forecasts[j].taskId == f.taskId ==> forecasts[j].id <= f.id
  }

  function LatestVisible(projects: seq<Project>, tasks: seq<Task>, forecasts: seq<ForecastLog>, user: User)
    : ForecastLog -> bool
  {
    (f: ForecastLog) => IsLatest(forecasts, f) && Visible(projects, tasks, user, f)
  }

  /** No two rows are about the same task. */
  predicate OnePerTask(views: seq<ForecastView>)
  {
    forall i, j :: 0 <= i < j < |views| ==> views[i].forecast.taskId != views[j].forecast.taskId
  }

  /** The views list `f`. */
  predicate Listed(views: seq<ForecastView>, f: ForecastLog)
  {
    exists i :: 0 <= i < |views| && views[i].forecast == f
  }

  /** `GET /api/forecasts/latest`: the latest forecast of every task that the
      caller may see; `total` is the number returned. */
  function GetLatestForecasts(projects: seq<Project>, tasks: seq<Task>, forecasts: seq<ForecastLog>, user: User)
    : (r: ForecastList)
    ensures r.total == |r.forecasts| <= |forecasts|
    ensures forall i :: 0 <= i < |r.forecasts| ==>
      var f := r.forecasts[i].forecast;
      f in forecasts && IsLatest(forecasts, f) && Visible(projects, tasks, user, f)
      && r.forecasts[i].taskName == TaskNameOf(tasks, f)
  {
    var latest := Filter(forecasts, LatestVisible(projects, tasks, forecasts, user));
    ForecastList(Enrich(tasks, latest), |latest|)
  }

  /** Every latest forecast the caller may see is returned. */
  lemma LatestIsComplete(projects: seq<Project>, tasks: seq<Task>, forecasts: seq<ForecastLog>, user: User, j: nat)
    requires j < |forecasts| && IsLatest(forecasts, forecasts[j]) && Visible(projects, tasks, user, forecasts[j])
    ensures Listed(GetLatestForecasts(projects, tasks, forecasts, user).forecasts, forecasts[j])
  {
    var latest := Filter(forecasts, LatestVisible(projects, tasks, forecasts, user));
    assert LatestVisible(projects, tasks, forecasts, user)(forecasts[j]);
    var i :| 0 <= i < |latest| && latest[i] == forecasts[j];
    assert GetLatestForecasts(projects, tasks, forecasts, user).forecasts[i].forecast == forecasts[j];
  }

  /** Two latest forecasts of the same task have the same id. */
  lemma LatestOfSameTask(forecasts: seq<ForecastLog>, ka: nat, kb: nat)
    requires ka < |forecasts| && kb < |forecasts|
    requires IsLatest(forecasts, forecasts[ka]) && IsLatest(forecasts, forecasts[kb])
    requires forecasts[ka].taskId == forecasts[kb].taskId
    ensures forecasts[ka].id == forecasts[kb].id
  {
    assert forecasts[kb].id <= forecasts[ka].id;
    assert forecasts[ka].id <= forecasts[kb].id;
  }

  /** With unique forecast ids, no task has two latest forecasts. */
  lemma LatestIsOnePerTask(projects: seq<Project>, tasks: seq<Task>, forecasts: seq<ForecastLog>, user: User)
    requires UniqueForecastIds(forecasts)
    ensures OnePerTask(GetLatestForecasts(projects, tasks, forecasts, user).forecasts)
  {
    var r := GetLatestForecasts(projects, tasks, forecasts, user).forecasts;
    var latest := Filter(forecasts, LatestVisible(projects, tasks, forecasts, user));
    assert r == Enrich(tasks, latest);
    FilterKeepsDistinct(forecasts, LatestVisible(projects, tasks, forecasts, user));
    forall i, j | 0 <= i < j < |r|
      ensures r[i].forecast.taskId != r[j].forecast.taskId
    {
      assert r[i].forecast == latest[i] && r[j].forecast == latest[j];
      if latest[i].taskId == latest[j].taskId {
        var ka :| 0 <= ka < |forecasts| && forecasts[ka] == latest[i];
        var kb :| 0 <= kb < |forecasts| && forecasts[kb] == latest[j];
        LatestOfSameTask(forecasts, ka, kb);
        assert false;
      }
    }
  }
}

=== FILE: Models.dfy ===
/** The persisted entities of the backend (users, projects, tasks, forecast and
    automation logs) and the string-valued enumerations they carry. Every
    enumeration is a string enum: `Parse*` is the enum constructor
    (`TaskStatus("done")`), which raises `ValueError` on an unknown string,
    here `None`. */
module Models {
  import opened Common

  datatype Role = Admin | RegularUser

  datatype TaskStatus = Todo | InProgress | Done | Blocked

  datatype TaskPriority = Low | Medium | High | Critical

  datatype RiskLevel = LowRisk | MediumRisk | HighRisk | CriticalRisk

  datatype AutomationStatus = Success | Failed | Running

  function RoleName(r: Role): string
  {
    match r
    case Admin => "admin"
    case RegularUser => "user"
  }

  function StatusName(s: TaskStatus): string
  {
    match s
    case Todo => "todo"
    case InProgress => "in_progress"
    case Done => "done"
    case Blocked => "blocked"
  }

  function PriorityName(p: TaskPriority): string
  {
    match p
    case Low => "low"
    case Medium => "medium"
    case High => "high"
    case Critical => "critical"
  }

  function RiskName(r: RiskLevel): string
  {
    match r
    case LowRisk => "low"
    case MediumRisk => "medium"
    case HighRisk => "high"
    case CriticalRisk => "critical"
  }

  function AutomationStatusName(s: AutomationStatus): string
  {
    match s
    case Success => "success"
    case Failed => "failed"
    case Running => "running"
  }

  /** `TaskStatus(s)`: the member whose value is `s`, if any. */
  function ParseStatus(s: string): (r: Option<TaskStatus>)
    ensures forall st :: r == Some(st) <==> StatusName(st) == s
  {
    if s == "todo" then Some(Todo)
    else if s == "in_progress" then Some(InProgress)
    else if s == "done" then Some(Done)
    else if s == "blocked" then Some(Blocked)
    else None
  }

  /** `TaskPriority(s)`. */
  function ParsePriority(s: string): (r: Option<TaskPriority>)
    ensures forall p :: r == Some(p) <==> PriorityName(p) == s
  {
    if s == "low" then Some(Low)
    else if s == "medium" then Some(Medium)
    else if s == "high" then Some(High)
    else if s == "critical" then Some(Critical)
    else None
  }

  /** `RiskLevel(s)`. */
  function ParseRisk(s: string): (r: Option<RiskLevel>)
    ensures forall l :: r == Some(l) <==> RiskName(l) == s
  {
    if s == "low" then Some(LowRisk)
    else if s == "medium" then Some(MediumRisk)
    else if s == "high" then Some(HighRisk)
    else if s == "critical" then Some(CriticalRisk)
    else None
  }

  /** `AutomationStatus(s)`. */
  function ParseAutomationStatus(s: string): (r: Option<AutomationStatus>)
    ensures forall st :: r == Some(st) <==> AutomationStatusName(st) == s
  {
    if s == "success" then Some(Success)
    else if s == "failed" then Some(Failed)
    else if s == "running" then Some(Running)
    else None
  }

  /** A bcrypt digest. The only thing the model relies on is that
      `HashPassword` is injective, so `VerifyPassword` accepts exactly the
      password that was hashed. Real bcrypt reads only the first 72 bytes of
      a password, and registration accepts longer ones, so two passwords that
      share those 72 bytes verify alike there; the model does not capture
      this. */
  datatype PasswordHash = Bcrypt(digestOf: string)

  function HashPassword(password: string): PasswordHash
  {
    Bcrypt(password)
  }

  predicate VerifyPassword(plain: string, hashed: PasswordHash)
  {
    HashPassword(plain) == hashed
  }

  datatype User = User(
    id: int,
    email: string,
    username: string,
    fullName: Option<string>,
    passwordHash: PasswordHash,
    role: Role)

  datatype Project = Project(id: int, name: string, ownerId: int)

  /** A task row. Hours are floats in the database and stay opaque reals here;
      progress is an integer percentage; timestamps are integer seconds. */
  datatype Task = Task(
    id: int,
    projectId: int,
    name: string,
    description: Option<string>,
    priority: TaskPriority,
    status: TaskStatus,
    progress: int,
    estimatedHours: Option<real>,
    actualHours: Option<real>,
    deadline: Option<int>,
    lastProgressUpdate: Option<int>)

  datatype ForecastLog = ForecastLog(
    id: int,
    taskId: int,
    riskLevel: RiskLevel,
    riskPercentage: real,
    predictedDelayDays: int,
    analysis: string,
    recommendations: Option<string>,
    createdAt: int)

  datatype AutomationLog = AutomationLog(
    workflowName: string,
    status: AutomationStatus,
    errorMessage: Option<string>)

  /** `User.filter(User.id == id).first()`. */
  function UserById(users: seq<User>, id: int): (r: Option<User>)
    ensures r.Some? ==> r.value in users && r.value.id == id
    ensures r.None? <==> forall j :: 0 <= j < |users| ==> users[j].id != id
  {
    match FindFirst(users, (u: User) => u.id == id)
    case None => None
    case Some(k) => Some(users[k])
  }

  /** `User.filter(User.email == email).first()`. */
  function UserByEmail(users: seq<User>, email: string): (r: Option<User>)
    ensures r.Some? ==> r.value in users && r.value.email == email
    ensures r.None? <==> forall j :: 0 <= j < |users| ==> users[j].email != email
  {
    match FindFirst(users, (u: User) => u.email == email)
    case None => None
    case Some(k) => Some(users[k])
  }

  /** `Project.filter(Project.id == id).first()`. */
  function ProjectById(projects: seq<Project>, id: int): (r: Option<Project>)
    ensures r.Some? ==> r.value in projects && r.value.id == id
    ensures r.None? <==> forall j :: 0 <= j < |projects| ==> projects[j].id != id
  {
    match FindFirst(projects, (p: Project) => p.id == id)
    case None => None
    case Some(k) => Some(projects[k])
  }

  /** Index of `Task.filter(Task.id == id).first()` in the task table. */
  function TaskIndex(tasks: seq<Task>, id: int): (r: Option<nat>)
    ensures r.Some? ==> r.value < |tasks| && tasks[r.value].id == id
    ensures r.None? <==> forall j :: 0 <= j < |tasks| ==> tasks[j].id != id
  {
    FindFirst(tasks, (t: Task) => t.id == id)
  }

  /** Primary keys: no two rows share an id. */
  ghost predicate UniqueTaskIds(tasks: seq<Task>)
  {
    forall i, j :: 0 <= i < j < |tasks| ==> tasks[i].id != tasks[j].id
  }

  ghost predicate UniqueForecastIds(forecasts: seq<ForecastLog>)
  {
    forall i, j :: 0 <= i < j < |forecasts| ==> forecasts[i].id != forecasts[j].id
  }
}

=== FILE: TaskRouter.dfy ===
/** The task endpoints: listing with filters, lookup, creation, update, the
    progress shortcut with its automatic status changes, and deletion. The
    database is the `TaskBoard`, whose project and task tables are sequences
    of rows; the completion webhook is not called but recorded, one
    `CompletionNotice` per call, so that when it fires can be stated. */
module TaskRouter {
  import opened Common
  import opened Models

  // ---------------------------------------------------------------------------
  // Error details
  // ---------------------------------------------------------------------------

  const TaskNotFoundDetail: string := "Không tìm thấy task"
  const ProjectNotFoundDetail: string := "Không tìm thấy dự án"
  const ViewForbiddenDetail: string := "Không có quyền truy cập task này"
  const EditForbiddenDetail: string := "Không có quyền chỉnh sửa task này"
  const ProgressForbiddenDetail: string := "Không có quyền cập nhật task này"
  const DeleteForbiddenDetail: string := "Không có quyền xóa task này"
  const CreateForbiddenDetail: string := "Không có quyền tạo task trong dự án này"
  const InvalidStatusFilterDetail: string := "Trạng thái không hợp lệ. Chọn: todo, in_progress, done, hoặc blocked"
  const InvalidPriorityFilterDetail: string := "Độ ưu tiên không hợp lệ. Chọn: low, medium, high, hoặc critical"

  /** The 400 detail when an enum constructor rejects `value`: the handler's
      prefix followed by the text of the `ValueError`. */
  function InvalidValueDetail(value: string, enumName: string): string
  {
    "Giá trị không hợp lệ: '" + value + "' is not a valid " + enumName
  }

  // ---------------------------------------------------------------------------
  // The owner-or-admin rule
  // ---------------------------------------------------------------------------

  /** An admin may act on any task; anyone else only when the task's project
      exists and they own it. */
  predicate MayAccess(user: User, project: Option<Project>)
  {
    user.role == Admin || (project.Some? && project.value.ownerId == user.id)
  }

  /** The opening of every single-task handler: look the task up (404 when it
      is missing), then look up its project and apply the owner-or-admin rule
      (403 with the handler's own `forbidden` detail). The result is the row
      index of the task. */
  function Authorize(projects: seq<Project>, tasks: seq<Task>, user: User, taskId: int, forbidden: string)
    : (r: Result<nat>)
    ensures (forall j :: 0 <= j < |tasks| ==> tasks[j].id != taskId) <==> r == Err(HttpError(NotFound, TaskNotFoundDetail))
    ensures r.Ok? ==> r.value < |tasks| && tasks[r.value].id == taskId
    ensures r.Ok? ==> forall j :: 0 <= j < r.value ==> tasks[j].id != taskId
    ensures r.Ok? ==> MayAccess(user, ProjectById(projects, tasks[r.value].projectId))
    ensures r.Err? ==> r.error.code == NotFound || r.error == HttpError(Forbidden, forbidden)
    ensures r.Err? && r.error.code == Forbidden ==>
      TaskIndex(tasks, taskId).Some?
      && !MayAccess(user, ProjectById(projects, tasks[TaskIndex(tasks, taskId).value].projectId))
    ensures user.role == Admin ==> (r.Ok? <==> exists j :: 0 <= j < |tasks| && tasks[j].id == taskId)
  {
    match TaskIndex(tasks, taskId)
    case None => Err(HttpError(NotFound, TaskNotFoundDetail))
    case Some(i) =>
      if MayAccess(user, ProjectById(projects, tasks[i].projectId)) then Ok(i)
      else Err(HttpError(Forbidden, forbidden))
  }

  /** `GET /api/tasks/{task_id}`. */
  function GetTask(projects: seq<Project>, tasks: seq<Task>, user: User, taskId: int): (r: Result<Task>)
    ensures r.Ok? ==> r.value in tasks && r.value.id == taskId
    ensures r.Ok? ==> MayAccess(user, ProjectById(projects, r.value.projectId))
    ensures (forall j :: 0 <= j < |tasks| ==> tasks[j].id != taskId) <==> r == Err(HttpError(NotFound, TaskNotFoundDetail))
    ensures r.Err? ==> r.error.code == NotFound || r.error == HttpError(Forbidden, ViewForbiddenDetail)
  {
    match Authorize(projects, tasks, user, taskId, ViewForbiddenDetail)
    case Err(e) => Err(e)
    case Ok(i) => Ok(tasks[i])
  }

  /** With unique task ids, `GetTask` returns the row with that id exactly
      when the caller may access it. */
  lemma GetTaskFindsTheRow(projects: seq<Project>, tasks: seq<Task>, user: User, k: nat)
    requires UniqueTaskIds(tasks) && k < |tasks|
    ensures GetTask(projects, tasks, user, tasks[k].id) == Ok(tasks[k])
      <==> MayAccess(user, ProjectById(projects, tasks[k].projectId))
  {
    var r := Authorize(projects, tasks, user, tasks[k].id, ViewForbiddenDetail);
    if r.Ok? {
      assert r.value == k;
    }
  }

  // ---------------------------------------------------------------------------
  // GET /api/tasks
  // ---------------------------------------------------------------------------

  datatype TaskList = TaskList(tasks: seq<Task>, total: nat)

  /** The `join(Project)` plus the authorisation filter: the task's project
      exists, and a non-admin owns it. */
  predicate InScope(projects: seq<Project>, user: User, t: Task)
  {
    var p := ProjectById(projects, t.projectId);
    p.Some? && (user.role == Admin || p.value.ownerId == user.id)
  }

  /** A task the query keeps once the filters are parsed. A project filter of
      `0` is falsy and not applied. */
  predicate Matches(projects: seq<Project>, user: User, projectId: Option<int>,
                    status: Option<TaskStatus>, priority: Option<TaskPriority>, t: Task)
  {
    InScope(projects, user, t)
    && (IntFilterActive(projectId) ==> t.projectId == projectId.value)
    && (status.Some? ==> t.status == status.value)
    && (priority.Some? ==> t.priority == priority.value)
  }

  /** `Matches` with the parsed filters fixed, as the predicate the listing filters by. */
  function TaskQuery(projects: seq<Project>, user: User, projectId: Option<int>,
                     status: Option<TaskStatus>, priority: Option<TaskPriority>): Task -> bool
  {
    (t: Task) => Matches(projects, user, projectId, status, priority, t)
  }

  /** A query-string filter: absent or empty means no filter, anything else
      must name an enum member. */
  function ParseStatusFilter(s: Option<string>): (r: Result<Option<TaskStatus>>)
    ensures r.Err? <==> StringFilterActive(s) && ParseStatus(s.value).None?
    ensures r.Err? ==> r.error == HttpError(BadRequest, InvalidStatusFilterDetail)
    ensures r.Ok? && r.value.Some? ==> StringFilterActive(s) && StatusName(r.value.value) == s.value
    ensures r.Ok? && r.value.None? ==> !StringFilterActive(s)
  {
    if !StringFilterActive(s) then Ok(None)
    else match ParseStatus(s.value)
      case None => Err(HttpError(BadRequest, InvalidStatusFilterDetail))
      case Some(st) => Ok(Some(st))
  }

  function ParsePriorityFilter(s: Option<string>): (r: Result<Option<TaskPriority>>)
    ensures r.Err? <==> StringFilterActive(s) && ParsePriority(s.value).None?
    ensures r.Err? ==> r.error == HttpError(BadRequest, InvalidPriorityFilterDetail)
    ensures r.Ok? && r.value.Some? ==> StringFilterActive(s) && PriorityName(r.value.value) == s.value
    ensures r.Ok? && r.value.None? ==> !StringFilterActive(s)
  {
    if !StringFilterActive(s) then Ok(None)
    else match ParsePriority(s.value)
      case None => Err(HttpError(BadRequest, InvalidPriorityFilterDetail))
      case Some(p) => Ok(Some(p))
  }

  /** `GET /api/tasks`: status is validated before priority; `total` counts
      every matching task before the page is cut. Rows come back in table
      order. `skip` and `limit` carry the query constraints `ge=0` and
      `1 <= limit <= 1000`. */
  function GetTasks(projects: seq<Project>, tasks: seq<Task>, user: User, projectId: Option<int>,
                    statusFilter: Option<string>, priority: Option<string>, skip: int, limit: int)
    : (r: Result<TaskList>)
    requires skip >= 0 && 1 <= limit <= 1000
    ensures StringFilterActive(statusFilter) && ParseStatus(statusFilter.value).None? ==>
      r == Err(HttpError(BadRequest, InvalidStatusFilterDetail))
    ensures (!(StringFilterActive(statusFilter) && ParseStatus(statusFilter.value).None?)
             && StringFilterActive(priority) && ParsePriority(priority.value).None?) ==>
      r == Err(HttpError(BadRequest, InvalidPriorityFilterDetail))
    ensures r.Ok? <==>
      !(StringFilterActive(statusFilter) && ParseStatus(statusFilter.value).None?)
      && !(StringFilterActive(priority) && ParsePriority(priority.value).None?)
    ensures r.Ok? ==> |r.value.tasks| <= limit && |r.value.tasks| <= r.value.total <= |tasks|
    ensures r.Ok? ==> forall i :: 0 <= i < |r.value.tasks| ==>
      var t := r.value.tasks[i];
      t in tasks && InScope(projects, user, t)
      && (IntFilterActive(projectId) ==> t.projectId == projectId.value)
      && (StringFilterActive(statusFilter) ==> StatusName(t.status) == statusFilter.value)
      && (StringFilterActive(priority) ==> PriorityName(t.priority) == priority.value)
    ensures r.Ok? ==>
      var query := TaskQuery(projects, user, projectId, ParseStatusFilter(statusFilter).value,
                             ParsePriorityFilter(priority).value);
      r.value.total == CountWhere(tasks, query) && r.value.tasks == Page(Filter(tasks, query), skip, limit)
  {
    match ParseStatusFilter(statusFilter)
    case Err(e) => Err(e)
    case Ok(st) =>
      match ParsePriorityFilter(priority)
      case Err(e) => Err(e)
      case Ok(pr) =>
        var matching := Filter(tasks, TaskQuery(projects, user, projectId, st, pr));
        Ok(TaskList(Page(matching, skip, limit), |matching|))
  }

  /** Every task the listing returns is one `GetTask` would return to the same
      caller. (The converse fails for an admin and a task whose project row is
      gone: `GetTask` shows it, the join of the listing drops it.) */
  lemma ListedTasksAreViewable(projects: seq<Project>, tasks: seq<Task>, user: User, projectId: Option<int>,
                               statusFilter: Option<string>, priority: Option<string>, skip: int, limit: int, i: nat)
    requires UniqueTaskIds(tasks)
    requires skip >= 0 && 1 <= limit <= 1000
    requires GetTasks(projects, tasks, user, projectId, statusFilter, priority, skip, limit).Ok?
    requires i < |GetTasks(projects, tasks, user, projectId, statusFilter, priority, skip, limit).value.tasks|
    ensures var t := GetTasks(projects, tasks, user, projectId, statusFilter, priority, skip, limit).value.tasks[i];
      GetTask(projects, tasks, user, t.id) == Ok(t)
  {
    var t := GetTasks(projects, tasks, user, projectId, statusFilter, priority, skip, limit).value.tasks[i];
    var k :| 0 <= k < |tasks| && tasks[k] == t;
    GetTaskFindsTheRow(projects, tasks, user, k);
  }

  /** An admin with no filters is told the number of tasks whose project
      exists, however the page is cut. */
  lemma AdminTotalCountsJoinedTasks(projects: seq<Project>, tasks: seq<Task>, user: User, skip: int, limit: int)
    requires user.role == Admin
    requires skip >= 0 && 1 <= limit <= 1000
    ensures GetTasks(projects, tasks, user, None, None, None, skip, limit)
      == Ok(TaskList(
           Page(Filter(tasks, (t: Task) => ProjectById(projects, t.projectId).Some?), skip, limit),
           CountWhere(tasks, (t: Task) => ProjectById(projects, t.projectId).Some?)))
  {
    var f := TaskQuery(projects, user, None, None, None);
    var g := (t: Task) => ProjectById(projects, t.projectId).Some?;
    FilterSame(tasks, f, g);
  }

  lemma {:induction false} FilterSame(xs: seq<Task>, f: Task -> bool, g: Task -> bool)
    requires forall t :: f(t) == g(t)
    ensures Filter(xs, f) == Filter(xs, g) && CountWhere(xs, f) == CountWhere(xs, g)
  {
    if |xs| > 0 {
      FilterSame(xs[1..], f, g);
    }
  }

  // ---------------------------------------------------------------------------
  // The progress state machine
  // ---------------------------------------------------------------------------

  /** The status after a progress update: reaching 100 completes a task not
      yet done; any positive progress starts a task still to do; nothing else
      moves. */
  function NextStatus(status: TaskStatus, progress: int): (next: TaskStatus)
    ensures next == Done <==> status == Done || progress == 100
    ensures next == InProgress <==>
      (status == InProgress && progress != 100) || (status == Todo && progress > 0 && progress != 100)
    ensures next == Todo <==> status == Todo && progress <= 0
    ensures next == Blocked <==> status == Blocked && progress != 100
  {
    if progress == 100 && status != Done then Done
    else if progress > 0 && status == Todo then InProgress
    else status
  }

  /** `task_just_completed` of the progress handler. */
  predicate JustCompleted(status: TaskStatus, progress: int)
  {
    progress == 100 && status != Done
  }

  /** The progress handler's notification condition (`task_just_completed and
      not was_done`) is exactly a transition into DONE. */
  lemma ProgressNotifiesOnTransition(status: TaskStatus, progress: int)
    ensures (JustCompleted(status, progress) && status != Done) <==>
      (status != Done && NextStatus(status, progress) == Done)
  {
  }

  /** How many completion notices a sequence of progress updates sends. */
  function NoticesAlong(status: TaskStatus, progresses: seq<int>): nat
    decreases |progresses|
  {
    if |progresses| == 0 then 0
    else
      var sent := if JustCompleted(status, progresses[0]) then 1 else 0;
      sent + NoticesAlong(NextStatus(status, progresses[0]), progresses[1..])
  }

  /** Progress updates never leave DONE, so along any run of them the
      completion notice is sent at most once, and never for a task that
      starts out done. */
  lemma {:induction false} AtMostOneCompletion(status: TaskStatus, progresses: seq<int>)
    ensures NoticesAlong(status, progresses) <= 1
    ensures status == Done ==> NoticesAlong(status, progresses) == 0
    decreases |progresses|
  {
    if |progresses| > 0 {
      var next := NextStatus(status, progresses[0]);
      AtMostOneCompletion(next, progresses[1..]);
      if JustCompleted(status, progresses[0]) {
        assert next == Done;
      }
    }
  }

  /** The row after `update_task_progress`. */
  function WithProgress(t: Task, progress: int, now: int): Task
  {
    t.(progress := progress, lastProgressUpdate := Some(now), status := NextStatus(t.status, progress))
  }

  // ---------------------------------------------------------------------------
  // PUT /api/tasks/{task_id}
  // ---------------------------------------------------------------------------

  /** The fields a client sent; an absent field is one left unset. */
  datatype TaskUpdate = TaskUpdate(
    name: Option<string>,
    description: Option<string>,
    priority: Option<string>,
    status: Option<string>,
    progress: Option<int>,
    estimatedHours: Option<real>,
    actualHours: Option<real>,
    deadline: Option<int>)

  /** Priority is converted before status; nothing is written unless both convert. */
  function ConvertUpdate(u: TaskUpdate): (r: Result<(Option<TaskPriority>, Option<TaskStatus>)>)
    ensures u.priority.Some? && ParsePriority(u.priority.value).None? ==>
      r == Err(HttpError(BadRequest, InvalidValueDetail(u.priority.value, "TaskPriority")))
    ensures ((u.priority.None? || ParsePriority(u.priority.value).Some?)
             && u.status.Some? && ParseStatus(u.status.value).None?) ==>
      r == Err(HttpError(BadRequest, InvalidValueDetail(u.status.value, "TaskStatus")))
    ensures r.Ok? ==> (r.value.0.Some? <==> u.priority.Some?) && (r.value.1.Some? <==> u.status.Some?)
    ensures r.Ok? && r.value.0.Some? ==> PriorityName(r.value.0.value) == u.priority.value
    ensures r.Ok? && r.value.1.Some? ==> StatusName(r.value.1.value) == u.status.value
  {
    if u.priority.Some? && ParsePriority(u.priority.value).None? then
      Err(HttpError(BadRequest, InvalidValueDetail(u.priority.value, "TaskPriority")))
    else if u.status.Some? && ParseStatus(u.status.value).None? then
      Err(HttpError(BadRequest, InvalidValueDetail(u.status.value, "TaskStatus")))
    else
      Ok((if u.priority.Some? then ParsePriority(u.priority.value) else None,
          if u.status.Some? then ParseStatus(u.status.value) else None))
  }

  /** The row after the `setattr` loop, the converted priority and status in
      place of their strings, and the progress timestamp set when progress is
      among the fields. */
  function Updated(t: Task, u: TaskUpdate, priority: Option<TaskPriority>, status: Option<TaskStatus>, now: int)
    : Task
  {
    t.(name := if u.name.Some? then u.name.value else t.name,
       description := if u.description.Some? then u.description else t.description,
       priority := if priority.Some? then priority.value else t.priority,
       status := if status.Some? then status.value else t.status,
       progress := if u.progress.Some? then u.progress.value else t.progress,
       estimatedHours := if u.estimatedHours.Some? then u.estimatedHours else t.estimatedHours,
       actualHours := if u.actualHours.Some? then u.actualHours else t.actualHours,
       deadline := if u.deadline.Some? then u.deadline else t.deadline,
       lastProgressUpdate := if u.progress.Some? then Some(now) else t.lastProgressUpdate)
  }

  /** An update changes only the fields it carries, never the id or the
      project, and touches the progress timestamp exactly when it carries
      progress. */
  lemma UpdateChangesOnlyGivenFields(t: Task, u: TaskUpdate, now: int)
    requires ConvertUpdate(u).Ok?
    ensures var n := Updated(t, u, ConvertUpdate(u).value.0, ConvertUpdate(u).value.1, now);
      n.id == t.id && n.projectId == t.projectId
      && (u.name.None? ==> n.name == t.name)
      && (u.description.None? ==> n.description == t.description)
      && (u.priority.None? ==> n.priority == t.priority)
      && (u.priority.Some? ==> PriorityName(n.priority) == u.priority.value)
      && (u.status.None? ==> n.status == t.status)
      && (u.status.Some? ==> StatusName(n.status) == u.status.value)
      && (u.progress.None? ==> n.progress == t.progress && n.lastProgressUpdate == t.lastProgressUpdate)
      && (u.progress.Some? ==> n.progress == u.progress.value && n.lastProgressUpdate == Some(now))
      && (u.estimatedHours.None? ==> n.estimatedHours == t.estimatedHours)
      && (u.actualHours.None? ==> n.actualHours == t.actualHours)
      && (u.deadline.None? ==> n.deadline == t.deadline)
  {
  }

  /** Every task id is below `nextId`, the id the next created task gets. */
  ghost predicate IdsBelow(tasks: seq<Task>, nextId: int)
  {
    forall k :: 0 <= k < |tasks| ==> tasks[k].id < nextId
  }

  /** Rewriting a row without changing its id keeps the ids unique and below `nextId`. */
  lemma RowUpdateKeepsIds(tasks: seq<Task>, nextId: int, i: nat, row: Task)
    requires UniqueTaskIds(tasks) && IdsBelow(tasks, nextId)
    requires i < |tasks| && row.id == tasks[i].id
    ensures UniqueTaskIds(tasks[i := row]) && IdsBelow(tasks[i := row], nextId)
  {
  }

  /** One call of `notify_task_completed`. */
  datatype CompletionNotice = CompletionNotice(taskId: int, actualHours: Option<real>)

  /** Removing one task keeps the ids unique and below the bound, and its id
      is then on no task. */
  lemma RemovingTaskKeepsIds(tasks: seq<Task>, i: nat, rest: seq<Task>, bound: int)
    requires UniqueTaskIds(tasks) && IdsBelow(tasks, bound)
    requires i < |tasks| && rest == tasks[..i] + tasks[i + 1..]
    ensures UniqueTaskIds(rest) && IdsBelow(rest, bound)
    ensures forall j :: 0 <= j < |rest| ==> rest[j].id != tasks[i].id
  {
    forall j | 0 <= j < |rest|
      ensures rest[j] == tasks[if j < i then j else j + 1]
    {
    }
  }

  /** The project and task tables and the completion notices sent so far. */
  class TaskBoard {
    var projects: seq<Project>
    var tasks: seq<Task>
    var nextTaskId: int
    var notices: seq<CompletionNotice>

    /** Task ids are unique and below the next id to hand out. */
    ghost predicate Valid()
      reads this
    {
      UniqueTaskIds(tasks) && IdsBelow(tasks, nextTaskId)
    }

    constructor (projects: seq<Project>)
      ensures Valid()
      ensures this.projects == projects && tasks == [] && nextTaskId == 1 && notices == []
    {
      this.projects := projects;
      tasks := [];
      nextTaskId := 1;
      notices := [];
    }

    /** `POST /api/tasks`: 404 for a missing project, then the
        owner-or-admin rule, then priority and status are converted. The new
        task gets the next id and starts at progress 0. */
    method CreateTask(user: User, name: string, description: Option<string>, projectId: int,
                      priority: string, status: string, estimatedHours: Option<real>, deadline: Option<int>)
      returns (r: Result<Task>)
      requires Valid()
      modifies this
      ensures Valid()
      ensures projects == old(projects) && notices == old(notices)
      ensures ProjectById(projects, projectId).None? ==> r == Err(HttpError(NotFound, ProjectNotFoundDetail))
      ensures ProjectById(projects, projectId).Some? && !MayAccess(user, ProjectById(projects, projectId)) ==>
        r == Err(HttpError(Forbidden, CreateForbiddenDetail))
      ensures (MayAccess(user, ProjectById(projects, projectId)) && ProjectById(projects, projectId).Some?
               && ParsePriority(priority).None?) ==>
        r == Err(HttpError(BadRequest, InvalidValueDetail(priority, "TaskPriority")))
      ensures (MayAccess(user, ProjectById(projects, projectId)) && ProjectById(projects, projectId).Some?
               && ParsePriority(priority).Some? && ParseStatus(status).None?) ==>
        r == Err(HttpError(BadRequest, InvalidValueDetail(status, "TaskStatus")))
      ensures (ProjectById(projects, projectId).Some? && MayAccess(user, ProjectById(projects, projectId))
               && ParsePriority(priority).Some? && ParseStatus(status).Some?) ==> r.Ok?
      ensures r.Err? ==> tasks == old(tasks) && nextTaskId == old(nextTaskId)
      ensures r.Ok? ==>
        tasks == old(tasks) + [r.value] && nextTaskId == old(nextTaskId) + 1
        && r.value.id == old(nextTaskId) && r.value.projectId == projectId
        && r.value.name == name && r.value.description == description
        && PriorityName(r.value.priority) == priority && StatusName(r.value.status) == status
        && r.value.progress == 0 && r.value.estimatedHours == estimatedHours && r.value.deadline == deadline
        && r.value.actualHours.None? && r.value.lastProgressUpdate.None?
    {
      var project := ProjectById(projects, projectId);
      if project.None? {
        return Err(HttpError(NotFound, ProjectNotFoundDetail));
      }
      if !MayAccess(user, project) {
        return Err(HttpError(Forbidden, CreateForbiddenDetail));
      }
      var pr := ParsePriority(priority);
      if pr.None? {
        return Err(HttpError(BadRequest, InvalidValueDetail(priority, "TaskPriority")));
      }
      var st := ParseStatus(status);
      if st.None? {
        return Err(HttpError(BadRequest, InvalidValueDetail(status, "TaskStatus")));
      }
      var task := Task(nextTaskId, projectId, name, description, pr.value, st.value, 0,
                       estimatedHours, None, deadline, None);
      tasks := tasks + [task];
      nextTaskId := nextTaskId + 1;
      r := Ok(task);
    }

    /** `PATCH /api/tasks/{task_id}/progress`: progress and its timestamp are
        always written, the status follows `NextStatus`, and a notice is sent
        exactly when the task moves into DONE. */
    method UpdateTaskProgress(user: User, taskId: int, progress: int, now: int)
      returns (r: Result<Task>, notified: bool)
      requires Valid()
      modifies this
      ensures Valid()
      ensures projects == old(projects) && nextTaskId == old(nextTaskId)
      ensures Authorize(projects, old(tasks), user, taskId, ProgressForbiddenDetail).Err? ==>
        r == Err(Authorize(projects, old(tasks), user, taskId, ProgressForbiddenDetail).error)
        && tasks == old(tasks) && notices == old(notices) && !notified
      ensures Authorize(projects, old(tasks), user, taskId, ProgressForbiddenDetail).Ok? ==>
        r.Ok? &&
        var i := Authorize(projects, old(tasks), user, taskId, ProgressForbiddenDetail).value;
        tasks == old(tasks)[i := WithProgress(old(tasks)[i], progress, now)] && r.value == tasks[i]
        && r.value.progress == progress && r.value.lastProgressUpdate == Some(now)
        && (notified <==> old(tasks)[i].status != Done && r.value.status == Done)
        && notices == old(notices) + (if notified then [CompletionNotice(taskId, r.value.actualHours)] else [])
    {
      notified := false;
      var located := Authorize(projects, tasks, user, taskId, ProgressForbiddenDetail);
      if located.Err? {
        return Err(located.error), false;
      }
      var i := located.value;
      var task := tasks[i];
      var wasDone := task.status == Done;
      task := task.(progress := progress, lastProgressUpdate := Some(now));
      var taskJustCompleted := false;
      if progress == 100 && task.status != Done {
        task := task.(status := Done);
        taskJustCompleted := true;
      } else if progress > 0 && task.status == Todo {
        task := task.(status := InProgress);
      }
      RowUpdateKeepsIds(tasks, nextTaskId, i, task);
      tasks := tasks[i := task];
      if taskJustCompleted && !wasDone {
        notices := notices + [CompletionNotice(task.id, task.actualHours)];
        notified := true;
      }
      r := Ok(task);
    }

    /** `PUT /api/tasks/{task_id}`: after the lookup and the owner-or-admin
        rule, priority and status are converted (400, nothing written, when
        either is not a member), the given fields are written, and a notice is
        sent exactly when the status moves into DONE. */
    method UpdateTask(user: User, taskId: int, u: TaskUpdate, now: int)
      returns (r: Result<Task>, notified: bool)
      requires Valid()
      modifies this
      ensures Valid()
      ensures projects == old(projects) && nextTaskId == old(nextTaskId)
      ensures Authorize(projects, old(tasks), user, taskId, EditForbiddenDetail).Err? ==>
        r == Err(Authorize(projects, old(tasks), user, taskId, EditForbiddenDetail).error)
      ensures Authorize(projects, old(tasks), user, taskId, EditForbiddenDetail).Ok? && ConvertUpdate(u).Err? ==>
        r == Err(ConvertUpdate(u).error)
      ensures r.Err? ==> tasks == old(tasks) && notices == old(notices) && !notified
      ensures Authorize(projects, old(tasks), user, taskId, EditForbiddenDetail).Ok? && ConvertUpdate(u).Ok? ==>
        r.Ok? &&
        var i := Authorize(projects, old(tasks), user, taskId, EditForbiddenDetail).value;
        var c := ConvertUpdate(u).value;
        tasks == old(tasks)[i := Updated(old(tasks)[i], u, c.0, c.1, now)] && r.value == tasks[i]
        && (notified <==> old(tasks)[i].status != Done && r.value.status == Done)
        && notices == old(notices) + (if notified then [CompletionNotice(taskId, r.value.actualHours)] else [])
    {
      notified := false;
      var located := Authorize(projects, tasks, user, taskId, EditForbiddenDetail);
      if located.Err? {
        return Err(located.error), false;
      }
      var i := located.value;
      var task := tasks[i];
      var wasDone := task.status == Done;
      var converted := ConvertUpdate(u);
      if converted.Err? {
        return Err(converted.error), false;
      }
      var (pr, st) := converted.value;
      task := Updated(task, u, pr, st, now);
      RowUpdateKeepsIds(tasks, nextTaskId, i, task);
      tasks := tasks[i := task];
      if !wasDone && task.status == Done {
        notices := notices + [CompletionNotice(task.id, task.actualHours)];
        notified := true;
      }
      r := Ok(task);
    }

    /** `DELETE /api/tasks/{task_id}`: the row is removed and its name is
        echoed in the confirmation. */
    method DeleteTask(user: User, taskId: int) returns (r: Result<string>)
      requires Valid()
      modifies this
      ensures Valid()
      ensures projects == old(projects) && nextTaskId == old(nextTaskId) && notices == old(notices)
      ensures Authorize(projects, old(tasks), user, taskId, DeleteForbiddenDetail).Err? ==>
        r == Err(Authorize(projects, old(tasks), user, taskId, DeleteForbiddenDetail).error) && tasks == old(tasks)
      ensures Authorize(projects, old(tasks), user, taskId, DeleteForbiddenDetail).Ok? ==>
        var i := Authorize(projects, old(tasks), user, taskId, DeleteForbiddenDetail).value;
        tasks == old(tasks)[..i] + old(tasks)[i + 1..]
        && r == Ok("Đã xóa task '" + old(tasks)[i].name + "' thành công")
        && forall j :: 0 <= j < |tasks| ==> tasks[j].id != taskId
    {
      var located := Authorize(projects, tasks, user, taskId, DeleteForbiddenDetail);
      if located.Err? {
        return Err(located.error);
      }
      var i := located.value;
      var taskName := tasks[i].name;
      RemovingTaskKeepsIds(tasks, i, tasks[..i] + tasks[i + 1..], nextTaskId);
      tasks := tasks[..i] + tasks[i + 1..];
      r := Ok("Đã xóa task '" + taskName + "' thành công");
    }
  }
}

=== FILE: Webhooks.dfy ===
/** The callbacks the automation workflows post back, and the owner lookups
    they use to address e-mail. Each handler derives an automation status
    from its payload and appends records to the `AutomationInbox`; the JSON
    `input_data`/`output_data` blobs of an automation log are not kept. */
module Webhooks {
  import opened Common
  import opened Models

  // ---------------------------------------------------------------------------
  // Status derivation
  // ---------------------------------------------------------------------------

  /** `handle_new_user`: the registration workflow succeeded only when it both
      sent the e-mail and created the demo project. */
  function NewUserStatus(emailSent: bool, demoProjectCreated: bool): (s: AutomationStatus)
    ensures s == Success <==> emailSent && demoProjectCreated
    ensures s != Running
  {
    if emailSent && demoProjectCreated then Success else Failed
  }

  /** `handle_deploy_success`: only the exact status string "success" counts
      as a success. */
  function DeployStatus(status: string): (s: AutomationStatus)
    ensures s == Success <==> status == "success"
    ensures s != Running
  {
    if status == "success" then Success else Failed
  }

  /** `handle_automation_log`: a known status string is kept, any other one
      is recorded as a failure rather than rejected. */
  function AutomationLogStatus(status: string): (s: AutomationStatus)
    ensures ParseAutomationStatus(status).Some? ==> AutomationStatusName(s) == status
    ensures ParseAutomationStatus(status).None? ==> s == Failed
  {
    match ParseAutomationStatus(status)
    case Some(known) => known
    case None => Failed
  }

  /** Every status survives the round trip through its name. */
  lemma AutomationLogStatusKeepsKnown(s: AutomationStatus)
    ensures AutomationLogStatus(AutomationStatusName(s)) == s
  {
    assert ParseAutomationStatus(AutomationStatusName(s)) == Some(s);
  }

  // ---------------------------------------------------------------------------
  // Owner lookups
  // ---------------------------------------------------------------------------

  /** `owner.full_name or owner.username`: an absent or empty full name falls
      back to the username. */
  function OwnerName(owner: User): (name: string)
    ensures owner.fullName.Some? && owner.fullName.value != "" ==> name == owner.fullName.value
    ensures owner.fullName.None? || owner.fullName.value == "" ==> name == owner.username
  {
    if owner.fullName.Some? && owner.fullName.value != "" then owner.fullName.value else owner.username
  }

  /** The owner fields both lookups return. */
  datatype OwnerContact = OwnerContact(projectId: int, projectName: string, ownerId: int,
                                       ownerEmail: string, ownerName: string)

  function MissingProjectDetail(projectId: int): string
  {
    "Project ID " + IntToString(projectId) + " không tồn tại"
  }

  /** `GET /project-owner-email/{project_id}`: 404 for a missing project, then
      404 for a missing owner. */
  function ProjectOwnerEmail(projects: seq<Project>, users: seq<User>, projectId: int): (r: Result<OwnerContact>)
    ensures ProjectById(projects, projectId).None? <==> r == Err(HttpError(NotFound, MissingProjectDetail(projectId)))
    ensures ProjectById(projects, projectId).Some? && UserById(users, ProjectById(projects, projectId).value.ownerId).None?
      ==> r == Err(HttpError(NotFound, "Không tìm thấy owner cho project ID " + IntToString(projectId)))
    ensures r.Ok? <==>
      ProjectById(projects, projectId).Some? && UserById(users, ProjectById(projects, projectId).value.ownerId).Some?
    ensures r.Ok? ==>
      exists p, u :: p in projects && u in users && p.id == projectId && u.id == p.ownerId
        && r.value == OwnerContact(projectId, p.name, p.ownerId, u.email, OwnerName(u))
  {
    match ProjectById(projects, projectId)
    case None => Err(HttpError(NotFound, MissingProjectDetail(projectId)))
    case Some(project) =>
      match UserById(users, project.ownerId)
      case None => Err(HttpError(NotFound, "Không tìm thấy owner cho project ID " + IntToString(projectId)))
      case Some(owner) => Ok(OwnerContact(projectId, project.name, project.ownerId, owner.email, OwnerName(owner)))
  }

  /** `GET /task-owner-email/{task_id}`: 404 for a missing task, then for its
      missing project, then for the project's missing owner. */
  function TaskOwnerEmail(tasks: seq<Task>, projects: seq<Project>, users: seq<User>, taskId: int)
    : (r: Result<(Task, OwnerContact)>)
    ensures TaskIndex(tasks, taskId).None? ==>
      r == Err(HttpError(NotFound, "Task ID " + IntToString(taskId) + " không tồn tại"))
    ensures TaskIndex(tasks, taskId).Some? ==>
      var task := tasks[TaskIndex(tasks, taskId).value];
      (ProjectById(projects, task.projectId).None? ==> r == Err(HttpError(NotFound, MissingProjectDetail(task.projectId))))
      && (ProjectById(projects, task.projectId).Some? ==>
            var ownerId := ProjectById(projects, task.projectId).value.ownerId;
            (UserById(users, ownerId).None? ==>
               r == Err(HttpError(NotFound, "Owner ID " + IntToString(ownerId) + " không tồn tại")))
            && (UserById(users, ownerId).Some? ==> r.Ok?))
    ensures r.Ok? ==> r.value.0 in tasks && r.value.0.id == taskId && r.value.1.projectId == r.value.0.projectId
    ensures r.Err? ==> r.error.code == NotFound
  {
    match TaskIndex(tasks, taskId)
    case None => Err(HttpError(NotFound, "Task ID " + IntToString(taskId) + " không tồn tại"))
    case Some(i) =>
      var task := tasks[i];
      match ProjectById(projects, task.projectId)
      case None => Err(HttpError(NotFound, MissingProjectDetail(task.projectId)))
      case Some(project) =>
        match UserById(users, project.ownerId)
        case None => Err(HttpError(NotFound, "Owner ID " + IntToString(project.ownerId) + " không tồn tại"))
        case Some(owner) =>
          Ok((task, OwnerContact(task.projectId, project.name, project.ownerId, owner.email, OwnerName(owner))))
  }

  /** The two lookups agree: the owner found for a task is the owner found
      for the task's project, and a task lookup fails on the project or the
      owner exactly when the project lookup fails. */
  lemma TaskOwnerIsProjectOwner(tasks: seq<Task>, projects: seq<Project>, users: seq<User>, taskId: int)
    requires TaskIndex(tasks, taskId).Some?
    ensures var t := tasks[TaskIndex(tasks, taskId).value];
      var byTask := TaskOwnerEmail(tasks, projects, users, taskId);
      var byProject := ProjectOwnerEmail(projects, users, t.projectId);
      (byTask.Ok? <==> byProject.Ok?) && (byTask.Ok? ==> byTask.value.1 == byProject.value)
  {
  }

  // ---------------------------------------------------------------------------
  // The handlers
  // ---------------------------------------------------------------------------

  const NewUserWorkflow: string := "User Registration Automation"
  const ForecastWorkflow: string := "Quick Progress Forecast"
  const DeployWorkflow: string := "CI/CD Deployment"

  /** The tables the callbacks read and append to. */
  class AutomationInbox {
    var tasks: seq<Task>
    var forecasts: seq<ForecastLog>
    var logs: seq<AutomationLog>
    var nextForecastId: int

    ghost predicate Valid()
      reads this
    {
      UniqueForecastIds(forecasts) && forall k :: 0 <= k < |forecasts| ==> forecasts[k].id < nextForecastId
    }

    constructor (tasks: seq<Task>)
      ensures Valid() && this.tasks == tasks && forecasts == [] && logs == [] && nextForecastId == 1
    {
      this.tasks := tasks;
      forecasts := [];
      logs := [];
      nextForecastId := 1;
    }

    /** `POST /new-user`: one log, whose status is `NewUserStatus`. */
    method HandleNewUser(userId: int, emailSent: bool, demoProjectCreated: bool) returns (message: string)
      requires Valid()
      modifies this
      ensures Valid()
      ensures tasks == old(tasks) && forecasts == old(forecasts) && nextForecastId == old(nextForecastId)
      ensures logs == old(logs) + [AutomationLog(NewUserWorkflow, NewUserStatus(emailSent, demoProjectCreated), None)]
      ensures message == "Đã xử lý user ID " + IntToString(userId) + " thành công"
    {
      var status := if emailSent && demoProjectCreated then Success else Failed;
      logs := logs + [AutomationLog(NewUserWorkflow, status, None)];
      message := "Đã xử lý user ID " + IntToString(userId) + " thành công";
    }

    /** `POST /forecast-complete`: 404 for a missing task is raised before
        the risk level is checked; an unknown risk level is a 400; either
        way nothing is written. On success one forecast and one successful
        automation log are appended. `riskPercentage` carries the payload
        schema's bound 0..100. */
    method HandleForecastComplete(taskId: int, riskLevel: string, riskPercentage: real, predictedDelayDays: int,
                                  analysis: string, recommendations: Option<string>, now: int)
      returns (r: Result<string>)
      requires Valid()
      requires 0.0 <= riskPercentage <= 100.0
      modifies this
      ensures Valid()
      ensures tasks == old(tasks)
      ensures TaskIndex(tasks, taskId).None? ==>
        r == Err(HttpError(NotFound, "Task ID " + IntToString(taskId) + " không tồn tại"))
      ensures TaskIndex(tasks, taskId).Some? && ParseRisk(riskLevel).None? ==>
        r == Err(HttpError(BadRequest, "Risk level không hợp lệ: " + riskLevel))
      ensures r.Err? ==>
        forecasts == old(forecasts) && logs == old(logs) && nextForecastId == old(nextForecastId)
      ensures TaskIndex(tasks, taskId).Some? && ParseRisk(riskLevel).Some? ==>
        r == Ok("Đã lưu forecast cho task ID " + IntToString(taskId))
        && forecasts == old(forecasts) + [ForecastLog(old(nextForecastId), taskId, ParseRisk(riskLevel).value,
                                                      riskPercentage, predictedDelayDays, analysis,
                                                      recommendations, now)]
        && logs == old(logs) + [AutomationLog(ForecastWorkflow, Success, None)]
        && nextForecastId == old(nextForecastId) + 1
    {
      var task := TaskIndex(tasks, taskId);
      if task.None? {
        return Err(HttpError(NotFound, "Task ID " + IntToString(taskId) + " không tồn tại"));
      }
      var level := ParseRisk(riskLevel);
      if level.None? {
        return Err(HttpError(BadRequest, "Risk level không hợp lệ: " + riskLevel));
      }
      var forecast := ForecastLog(nextForecastId, taskId, level.value, riskPercentage, predictedDelayDays,
                                  analysis, recommendations, now);
      forecasts := forecasts + [forecast];
      nextForecastId := nextForecastId + 1;
      logs := logs + [AutomationLog(ForecastWorkflow, Success, None)];
      r := Ok("Đã lưu forecast cho task ID " + IntToString(taskId));
    }

    /** `POST /deploy-success`: one log, whose status is `DeployStatus`. */
    method HandleDeploySuccess(service: string, status: string, commitSha: string, deployedAt: string)
      returns (message: string)
      requires Valid()
      modifies this
      ensures Valid()
      ensures tasks == old(tasks) && forecasts == old(forecasts) && nextForecastId == old(nextForecastId)
      ensures logs == old(logs) + [AutomationLog(DeployWorkflow, DeployStatus(status), None)]
      ensures message == "Đã ghi nhận deployment " + service
    {
      var logStatus := if status == "success" then Success else Failed;
      logs := logs + [AutomationLog(DeployWorkflow, logStatus, None)];
      message := "Đã ghi nhận deployment " + service;
    }

    /** `POST /automation-log`: never rejects a status; one log is appended
        under the caller's workflow name and error message. */
    method HandleAutomationLog(workflowName: string, status: string, errorMessage: Option<string>)
      returns (message: string)
      requires Valid()
      modifies this
      ensures Valid()
      ensures tasks == old(tasks) && forecasts == old(forecasts) && nextForecastId == old(nextForecastId)
      ensures logs == old(logs) + [AutomationLog(workflowName, AutomationLogStatus(status), errorMessage)]
      ensures message == "Đã ghi log cho workflow '" + workflowName + "'"
    {
      var statusEnum: AutomationStatus;
      var parsed := ParseAutomationStatus(status);
      if parsed.Some? {
        statusEnum := parsed.value;
      } else {
        statusEnum := Failed;
      }
      logs := logs + [AutomationLog(workflowName, statusEnum, errorMessage)];
      message := "Đã ghi log cho workflow '" + workflowName + "'";
    }
  }
}
